=== FILE: README.md ===
# Encrypted origin–destination database: a Dafny model

The air-route dashboard (`app_rotas_aereas.py`) ships its data as ONE encrypted DuckDB file,
`Dados/od_aereo.duckdb.enc`. The file is produced either by the dashboard itself on first start
(build-if-missing) or by the offline build tool (`tools/build_duckdb.py`, always overwrite), and
is inspected by a standalone script (`verify_db.py`). The three programs share a key-derivation
chain: `_decode_b64_value`, `_generate_fixed_entropy` and `_derive_multilayer_key` (SHA-256 fixed
entropy, PBKDF2-HMAC-SHA512, scrypt, HKDF-SHA256, base64url Fernet key). Each copies it
separately, and each reads its secrets (`secrets.toml`, Streamlit secrets, environment) its own
way. The payload is gzip-compressed (kept as is when compression raises), then
Fernet-encrypted; on decryption a failed gunzip falls back to the decrypted bytes, while Fernet
errors propagate.

This project models that pipeline as pure functions and proves the following:

- the copies of the key derivation compute the same key whenever they see the same password and
  optional values, and where they differ;
- decryption inverts encryption, including across programs;
- the database holds exactly the tables whose source files exist;
- between two clears of the resource cache, the artifact lifecycle and the connection cache never
  decrypt twice and never change the scratch path; after a clear, the next call decrypts again
  into a new scratch directory;
- the two pure dashboard helpers (state-to-region lookup, option filter) do what their code and
  docstrings say.

Modules, one per file:

| file | module | models |
|---|---|---|
| `wrappers.dfy` | `Wrappers` | `Option`, `Result` (exceptions become `Failure`) |
| `seqs.dfy` | `Seqs` | order-preserving subsequences |
| `bytes.dfy` | `Bytes` | bytes, Python slicing (`Take`/`Drop`), UTF-8 `str.encode()` per RFC 3629 |
| `primitives.dfy` | `Primitives` | the hash, KDF, base64, gzip and Fernet functions as parameters, with their length and round-trip laws |
| `secrets.dfy` | `Secrets` | `_get_crypto_config`, `get_files_password`, the tool's `_read_secrets` |
| `keyderivation.dfy` | `KeyDerivation` | the three copies of the key chain and the verification script's fixed configuration |
| `envelope.dfy` | `Envelope` | `_encrypt_bytes` / `_decrypt_bytes` and the script's decrypt-with-retry |
| `builder.dfy` | `Builder` | `_create_duckdb_and_import_all_data` (both copies) |
| `artifact.dfy` | `Artifact` | `_ensure_encrypted_duckdb`, `_decrypt_db_to_temp`, `_db_state`, `get_duckdb_connection`, `build_encrypted_db` |
| `dashboard.dfy` | `Dashboard` | `get_regiao_for_uf`, `filter_options_by_search` |

The cryptographic and compression functions are not implemented. A value of type
`Primitives.Primitives` holds them, and its ghost predicate `Valid()` states everything the
proofs rely on:

- SHA-256 gives 32 bytes;
- PBKDF2, scrypt and HKDF give the requested length;
- base64url of `n` bytes has `4 * ((n + 2) / 3)` characters;
- `gzip.decompress` inverts a successful `gzip.compress`;
- `Fernet.decrypt` inverts `Fernet.encrypt` under the same key.

`Primitives.ValidIsSatisfiable` exhibits such a value, so these assumptions are consistent.
The randomness of Fernet (IV and timestamp) is an explicit `iv` argument. The filesystem is a
map from paths relative to the repository root to byte strings. The dashboard is taken to run
from the repository root, so its `Dados/...` paths and the tool's `<root>/Dados/...` paths name
the same files.

Where the copies differ, the model follows each program's code:

- The dashboard's `_derive_multilayer_key(password)` stops on the CONFIGURED password being empty
  and ignores whether its argument is empty. The tool's copy stops on an empty ARGUMENT.
  `KeyDerivation.AppIgnoresEmptyArgument` exhibits the difference.
- The dashboard takes all six values from one source: Streamlit secrets, or the environment only
  when reading secrets raises. The tool falls back to the environment name by name.
  `Secrets.SameSecretsIff` states exactly when the two readings agree.
- The tool's `_decode_b64_value` maps `None` to empty bytes; the dashboard's never sees `None`.
- `verify_db.py` repeats the tool's derivation line for line (`verify_db.py:15-66` against
  `tools/build_duckdb.py:39-92`). The same members model both copies.

## Model

| member | source | states |
|---|---|---|
| `Secrets.GetCryptoConfig` | app_rotas_aereas.py:385-416 | each of the six values is read under its own name from one source, the secrets store or, when there is none, the environment; a missing password is None and a missing optional value is "" |
| `Secrets.StoreIgnoresEnvironment` | app_rotas_aereas.py:387-395 | with a secrets store the environment is never consulted: two environments give the same configuration |
| `Secrets.EnvironmentActsAsStore` | app_rotas_aereas.py:396-414 | without a store the environment takes the store's place for all six values |
| `Bytes.Utf8` | app_rotas_aereas.py:422-422 | `str.encode()` gives between one and four bytes per character |
| `Bytes.Utf8Append` | app_rotas_aereas.py:469-469 | encoding distributes over concatenation, so `f"{password}_{factor}".encode()` is the three encodings joined |
| `Bytes.AsciiUtf8` | app_rotas_aereas.py:436-436 | ASCII text encodes to one byte per character, that character's code |
| `Secrets.EmptyFields` | app_rotas_aereas.py:647-648 | the list of missing settings keeps the fixed order of the five names and holds exactly the names whose value is empty |
| `Secrets.GetFilesPassword` | app_rotas_aereas.py:638-654 | stops with "password missing" when the password is empty or absent; otherwise succeeds iff all five optional values are non-empty, returning the configured password, and else fails naming exactly the empty ones, in order |
| `Secrets.FillDefaultsFills` | tools/build_duckdb.py:29-35 | the chain of `setdefault` calls adds exactly the six names, keeps every value already present and gives each added name its fallback |
| `Secrets.ReadSecrets` | tools/build_duckdb.py:14-36 | the tool's dictionary has exactly the keys of the file plus the six names; a name in the file keeps the file's value, any other gets its environment fallback |
| `Secrets.ReadSecretsFallbacks` | tools/build_duckdb.py:29-35 | a missing FILES_PASSWORD falls back to the environment or None; a missing optional value falls back to the environment or ""; values present in the file are never overridden |
| `Secrets.SameValueIff` | tools/build_duckdb.py:30-35 | for one optional value, the tool reads what the dashboard reads iff the file has the name or the environment has nothing non-empty for it |
| `Secrets.SameSecretsIff` | tools/build_duckdb.py:29-35 | with a secrets file, the dashboard and the tool see the same five optional values iff the environment supplies nothing non-empty for a name the file lacks (both directions) |
| `Secrets.SameSecretsWithoutFile` | app_rotas_aereas.py:406-414 | without a secrets file both programs read every optional value from the environment, so they agree |
| `KeyDerivation.DecodeB64Value` | app_rotas_aereas.py:418-422 | a value tagged `b64:` is base64-decoded after the four-character tag (and can fail); any other value is its UTF-8 encoding |
| `KeyDerivation.DecodeB64ValueOrNone` | tools/build_duckdb.py:39-42 | as the dashboard's decoder on strings, and `None` decodes to the empty byte string |
| `KeyDerivation.FixedEntropy` | app_rotas_aereas.py:424-436 | the fixed entropy is 32 bytes: SHA-256 of entropy factor, primary salt, secondary salt and the tag `od_aero_fixed_entropy_2024`, joined by `_` byte 0x5F, on the raw (undecoded) text |
| `KeyDerivation.Chain` | app_rotas_aereas.py:456-490 | PBKDF2 (200000 iterations, 64 bytes) on `password_entropy` salted by primary salt + first 16 entropy bytes; scrypt (n=16384, r=8, p=1, 32 bytes) on the first 32 bytes of that, salted by secondary salt + at most 16 pepper bytes; HKDF-SHA256 (32 bytes) on k2 + pepper, salted by integrity key + the other 16 entropy bytes; the two salt tails rebuild the entropy exactly; the Fernet key has 44 characters |
| `KeyDerivation.AppDeriveKey` | app_rotas_aereas.py:438-490 | stops when the configured password is empty, then succeeds iff all four byte settings decode, failing with a decode error otherwise; on success the key is the chain run on the decoded primary salt, secondary salt, pepper and integrity key, each in its own stage, with the entropy of the undecoded texts; the key has 44 characters |
| `KeyDerivation.ToolFixedEntropyText` | tools/build_duckdb.py:45-53 | the entropy text can be formed iff none of the three components is None, and is then the entropy factor, primary salt, secondary salt and `od_aero_fixed_entropy_2024` joined by `_`; otherwise `'_'.join` raises TypeError |
| `KeyDerivation.ToolDeriveKey` | tools/build_duckdb.py:56-92 | an empty password argument stops before any decoding; then a byte setting that does not decode is a decode error, and then a None in the entropy text is a TypeError; otherwise the key is the chain run on the decoded settings, each in its own stage, with the entropy of the dictionary's texts; the key has 44 characters |
| `KeyDerivation.AppAgreesWithTool` | app_rotas_aereas.py:438-490 | given the configured password and dictionaries with the same five optional values, the dashboard's and the tool's derivations give the same key or the same error |
| `KeyDerivation.AppIgnoresEmptyArgument` | app_rotas_aereas.py:440-444 | the copies part on an empty argument: the dashboard still derives a key (from `_` + entropy factor) when its configured password is set, the tool refuses |
| `KeyDerivation.AppDerivesFromEmptyArgument` | app_rotas_aereas.py:438-469 | with the configured password set and every byte setting decoding, the dashboard derives a key from an empty argument, feeding PBKDF2 just `_` and the entropy factor |
| `KeyDerivation.VerifyConfigValues` | verify_db.py:71-78 | the verification script's configuration has password `teste123` and every optional value empty |
| `KeyDerivation.VerifyConfigDerives` | verify_db.py:89 | with that configuration, the derivation for `teste123` succeeds with all four byte settings empty |
| `KeyDerivation.VerifyPasswordBytes` | verify_db.py:40-48 | the script's PBKDF2 input `teste123_` encodes to nine bytes, one ASCII code per character |
| `KeyDerivation.VerifyEntropyText` | verify_db.py:20-27 | with empty settings the entropy text is `___od_aero_fixed_entropy_2024` |
| `KeyDerivation.ScenarioChain` | verify_db.py:30-66 | with empty byte settings PBKDF2 is salted by the first half of the entropy alone, scrypt is unsalted, HKDF is salted by the second half and keyed by k2 alone |
| `KeyDerivation.VerifyScenario` | verify_db.py:71-89 | the script's key for `teste123`: derivation succeeds, PBKDF2 input is `teste123_`, the salts degenerate as above, and the key has 44 characters |
| `Envelope.CompressOrKeep` | app_rotas_aereas.py:507-511 | the sealed payload is the gzip stream exactly when compression succeeds (and then decompresses back to the data), and the data itself otherwise |
| `Envelope.Seal` | app_rotas_aereas.py:504-511 | a sealed token decrypts under its key to the (possibly compressed) payload |
| `Envelope.Open` | app_rotas_aereas.py:514-522 | the result is a failure (an invalid token, never caught) exactly when Fernet decryption fails; otherwise it is always Success, holding the decompressed payload, or the payload itself when decompression raises |
| `Envelope.SealOpen` | app_rotas_aereas.py:504-522 | under one key, opening a sealed token gives the data back when compression succeeded; when it failed, the data comes back unless it is itself a gzip stream |
| `Envelope.AppEncryptBytes` | app_rotas_aereas.py:504-511 | encryption succeeds iff key derivation does, with the same error, and the token decrypts under the derived key to the payload |
| `Envelope.AppDecryptBytes` | app_rotas_aereas.py:514-522 | decryption fails with the derivation's error, or opens the token under the derived key |
| `Envelope.AppRoundTrip` | app_rotas_aereas.py:504-522 | `_decrypt_bytes(_encrypt_bytes(data, pw), pw) == data` whenever encryption and compression succeed |
| `Envelope.ToolEncryptBytes` | tools/build_duckdb.py:95-103 | the tool's encryption succeeds iff its derivation does, with the same error, and the token decrypts under the tool's key to the payload |
| `Envelope.ToolToAppRoundTrip` | tools/build_duckdb.py:95-103 | with a non-empty password and decodable salts, pepper and integrity key, the tool's encryption succeeds and the dashboard decrypts its token back to the same data |
| `Envelope.VerifyRecover` | verify_db.py:93-99 | the script's decrypt-gunzip-retry sequence can only fail with an invalid token |
| `Envelope.VerifyRecoverIsOpen` | verify_db.py:93-99 | the retry adds nothing: the script recovers exactly what the dashboard's `_decrypt_bytes` recovers under the same key, and fails exactly when it fails |
| `Envelope.VerifyDecrypt` | verify_db.py:80-99 | the script's whole decryption with its fixed configuration is the dashboard's open under the `teste123` key; its only failure is an invalid token |
| `Builder.ImportAll` | app_rotas_aereas.py:535-583 | an import run never removes a table (each DROP is followed by its CREATE), and creates only tables its entries name |
| `Builder.ImportAllOther` | app_rotas_aereas.py:578-583 | an import run leaves every table outside its list untouched |
| `Builder.ImportAllEntry` | app_rotas_aereas.py:578-583 | with distinct table names, each listed table exists after the run iff its source exists or it existed before; an existing source replaces it with the source's contents |
| `Builder.ImportAllSpec` | tools/build_duckdb.py:156-161 | the same for every entry at once: replaced when the source exists, skipped without error when it does not, nothing else changed |
| `Builder.SourceTableMapDistinct` | app_rotas_aereas.py:535-577 | the twelve imports create twelve distinct tables |
| `Builder.CreateDatabase` | app_rotas_aereas.py:529-588 | on a fresh database each of the twelve tables exists iff its source file exists, holding that file's contents read as CSV or Parquet; no other table is created |
| `Artifact.EncryptedDbPathValue` | app_rotas_aereas.py:524-527 | the artifact path is `Dados/od_aereo.duckdb.enc` |
| `Artifact.EnsureEncryptedDb` | app_rotas_aereas.py:590-604 | an existing artifact is left as is with nothing built; a missing one is built from the sources and written encrypted, unless key derivation fails, in which case no file changes; a successful encryption returns the artifact path, and success always returns it |
| `Artifact.EnsureIsIdempotent` | app_rotas_aereas.py:590-604 | a second call after a successful first one does nothing and returns the same path |
| `Artifact.EnsureThenDecrypt` | app_rotas_aereas.py:598-603 | with the password configured and every byte setting decodable, the first start writes an artifact, and it decrypts to the database image built from the sources |
| `Artifact.DecryptDbToTemp` | app_rotas_aereas.py:606-615 | on success the scratch file `od_aereo.duckdb` in the new directory holds the decryption of the ensured artifact, and no other file changes; a failed ensure is passed on unchanged; a token that does not decrypt stops with the decryption's error after the ensure, with no scratch file written |
| `Artifact.ScratchFileIsNew` | app_rotas_aereas.py:610-614 | when the directory `mkdtemp` returns holds no file yet, the scratch file is a new file and every existing file keeps its contents |
| `Artifact.FirstStartScratchCopy` | app_rotas_aereas.py:606-615 | from a start without artifact, with the password configured and every byte setting decodable: build, encrypt, write, decrypt, write scratch, in that order, and the scratch copy is the built database image |
| `Artifact.DecryptAfterEnsure` | app_rotas_aereas.py:606-615 | after a successful ensure whose artifact decrypts to some plaintext, the scratch file holds that plaintext and the only further effects are one decryption and one write |
| `Artifact.ExistingArtifactOpens` | app_rotas_aereas.py:592-615 | with an artifact that decrypts, the scratch copy is its plaintext and nothing is built or encrypted |
| `Artifact.DbState` | app_rotas_aereas.py:617-623 | succeeds only after `get_files_password` does; then makes the scratch copy with the password it returned, leaving exactly the files that run leaves and failing exactly when it fails, with its error; on success caches a record of the scratch path and a new connection on it; a failure caches nothing |
| `Artifact.DbStateScratchIsPlaintext` | app_rotas_aereas.py:617-623 | the file a cached record names holds the decryption, under the configured password, of the artifact the ensure left |
| `Artifact.Probe` | app_rotas_aereas.py:626-636 | a live cached connection is returned as is; a dead one is replaced by a new connection on the SAME path, stored back in the record, with no other effect |
| `Artifact.GetDuckdbConnection` | app_rotas_aereas.py:625-636 | the returned connection is live and is the cached one; the first call is `_db_state`'s run, with its files and effects, returning the connection it opened; with a record already cached the call always succeeds, keeps the files and the path, and never builds, encrypts or decrypts; a failure leaves the cache empty |
| `Artifact.ReconnectIsFresh` | app_rotas_aereas.py:632-636 | a reconnect gives a connection no one holds, neither open nor the stale cached one |
| `Artifact.ApplyKeepsHandlesIssued` | app_rotas_aereas.py:617-636 | a call, a closed connection or a cache clear keeps every connection identity below the next one to be issued |
| `Artifact.RunKeepsHandlesIssued` | app_rotas_aereas.py:617-636 | the same over any sequence of calls, closed connections and cache clears |
| `Artifact.ReachableReconnectIsFresh` | app_rotas_aereas.py:632-636 | in every state reached from a fresh start, a reconnect gives a connection no one holds |
| `Artifact.CachedRecordIsStable` | app_rotas_aereas.py:617-636 | once a record is cached, no sequence of calls and closed connections without a cache clear changes its path or the files, or decrypts, builds or encrypts again |
| `Artifact.ClearedCacheDecryptsAgain` | app_rotas_aereas.py:1639-1644 | after `st.cache_resource.clear()` the record is gone, and the next successful call decrypts again and connects to the scratch file in the new directory |
| `Artifact.BuildEncryptedDb` | tools/build_duckdb.py:168-186 | a missing password stops before any file is touched; otherwise the database is always rebuilt and, when encryption succeeds, the artifact is overwritten with the tool's token, with the effects build, encrypt, write and the artifact path as result |
| `Artifact.ToolRebuildsWhereAppKeeps` | tools/build_duckdb.py:168-186 | over an existing artifact the dashboard's ensure does nothing, while the tool rebuilds, encrypts and writes a token for the current sources |
| `Artifact.ToolTokenDecryptsInApp` | tools/build_duckdb.py:183-186 | with a password present and decodable optional values, the tool's build succeeds and the artifact it writes decrypts in the dashboard to the database image |
| `Dashboard.FirstRegionWith` | app_rotas_aereas.py:917-920 | the walk finds no region iff the code is in no list, and otherwise returns the first region whose list holds it |
| `Dashboard.RegionTableInOrder` | app_rotas_aereas.py:909-920 | the walk tries norte, nordeste, centro_oeste, sudeste, sul in that order |
| `Dashboard.RegionListsDisjoint` | app_rotas_aereas.py:910-914 | no code is listed under two regions |
| `Dashboard.RegionListsDistinct` | app_rotas_aereas.py:910-914 | no region lists a code twice |
| `Dashboard.RegionsPartitionUfs` | app_rotas_aereas.py:910-914 | the five lists together hold 27 codes, none repeated |
| `Dashboard.GetRegiaoForUf` | app_rotas_aereas.py:907-920 | the answer is norte, nordeste, centro_oeste or sul exactly when the code is in that list, and sudeste exactly when it is in the sudeste list or in none |
| `Dashboard.RegionIsKnown` | app_rotas_aereas.py:907-920 | the answer is always one of the five regions |
| `Dashboard.Matching` | app_rotas_aereas.py:1337-1342 | the kept options are an order-preserving subsequence of the options, an option is kept iff one of its search texts contains the cleaned term, and a kept option keeps all its occurrences |
| `Dashboard.FilterOptionsBySearch` | app_rotas_aereas.py:1329-1344 | an empty term returns the options unchanged; otherwise the call fails (KeyError) iff some option is missing from the search map, and else returns exactly the reference filter over the cleaned term |

## Left out

- Streamlit UI, caching decorators other than the connection cache, logging, `st.error` texts:
  a call that ends in `st.stop()` or an exception is a `Failure` with a named error.
- Cryptography and compression internals: SHA-256, PBKDF2, scrypt, HKDF, base64 and gzip are
  parameters constrained only by the laws in `Primitives.Valid`. Fernet's IV and timestamp are
  an explicit argument, and token expiry is not modelled.
- `remove_accents` and `str.lower`: `Dashboard.FilterOptionsBySearch` takes the term cleaner as
  a parameter, because Unicode normalisation is outside the model. `create_searchable_options`,
  which builds the search map, is not part of this model; the map is an input holding each
  option's search texts.
- DuckDB itself: a database is the map of tables it holds, and the bytes of its file are a
  parameter (`Host.image`). A table holds its source file's bytes and format, not parsed rows.
- Temporary directories: `tempfile.mkdtemp` is a caller-supplied fresh directory, the build's
  `TemporaryDirectory` is not represented, and scratch files are never deleted, as in the
  dashboard. `os.makedirs` of `Dados` is not modelled: directories are implicit.
- Concurrency and partial writes: every write is atomic and runs alone. `duckdb.connect` never
  fails, and reconnecting to a deleted scratch file would create an empty database; neither is
  modelled.
- `secrets.toml` values are strings, since TOML tables, numbers and booleans are not modelled.
  An unreadable file counts as a missing one.
- Characters are Dafny `char`s, which cannot be lone surrogates. Python's `encode()` would raise
  on one.
- `_verify_file_integrity` and `check_data_files` are not modelled: the first only reports on
  the artifact's length, the second wraps `_ensure_encrypted_duckdb`. `health_check` is not
  modelled either: it reads memory usage and checks that two source CSVs exist, without
  touching the artifact.
- `verify_db.py` after decryption (writing a temporary file, querying tables, printing) is not
  modelled: it only reads the database.
- `Bytes.Utf8` states only the length bounds of the encoding; its concatenation law is
  `Bytes.Utf8Append` and its ASCII case is `Bytes.AsciiUtf8`.
- Source files that exist but cannot be parsed: `read_csv_auto` or `read_parquet` would raise,
  the exception would leave `_create_duckdb_and_import_all_data`, and no artifact would be
  written. In the model an existing source always imports, because file formats are not
  modelled.
- `Envelope.VerifyRecover` states only its failure mode; what it computes is given by
  `Envelope.VerifyRecoverIsOpen`.

=== FILE: artifact.dfy ===
/** The artifact lifecycle and the connection cache: the dashboard's build-if-missing
    `_ensure_encrypted_duckdb`, `_decrypt_db_to_temp`, `_db_state` and `get_duckdb_connection`,
    and the build tool's always-overwrite `build_encrypted_db`. */
module Artifact {
  import opened Wrappers
  import opened Bytes
  import opened Primitives
  import opened Secrets
  import opened KeyDerivation
  import opened Envelope
  import opened Builder

  const ENC_FILE := "od_aereo.duckdb.enc"
  const DB_FILE := "od_aereo.duckdb"

  /** `_get_encrypted_db_path` (the directory it creates is not modelled). */
  function EncryptedDbPath(): string {
    Join(DATA_DIR, ENC_FILE)
  }

  /** The artifact lives at `Dados/od_aereo.duckdb.enc`, relative to the repository root. */
  lemma EncryptedDbPathValue()
    ensures EncryptedDbPath() == "Dados/od_aereo.duckdb.enc"
  {
  }

  /** What the process sees but the model does not compute: the primitives, the configuration
      `_get_crypto_config` returns, and the bytes DuckDB writes for a database. */
  datatype Host = Host(prims: Primitives, config: CryptoConfig, image: Tables -> Bytes)

  /** The costly or visible things an operation does. */
  datatype Effect = Build | Encrypt | Decrypt | Write(path: string) | Connect(path: string)

  /** An operation's outcome, with the filesystem after it (failures may follow writes). */
  datatype Step<T> = Step(fs: FileSystem, effects: seq<Effect>, result: Result<T, Error>)

  /** `_ensure_encrypted_duckdb(password)`: if the artifact exists nothing happens; otherwise the
      database is built, encrypted and written over the artifact path with a plain write. */
  function EnsureEncryptedDb(h: Host, fs: FileSystem, password: string, iv: Bytes): (s: Step<string>)
    requires h.prims.Valid()
    ensures s.result.Success? ==> s.result.value == EncryptedDbPath() && EncryptedDbPath() in s.fs
    ensures EncryptedDbPath() in fs ==> s == Step(fs, [], Success(EncryptedDbPath()))
    ensures EncryptedDbPath() !in fs ==>
      var enc := AppEncryptBytes(h.prims, h.config, h.image(CreateDatabase(fs, DATA_DIR)), password, iv);
      && (enc.Success? ==> s.fs == fs[EncryptedDbPath() := enc.value]
                           && s.effects == [Build, Encrypt, Write(EncryptedDbPath())]
                           && s.result == Success(EncryptedDbPath()))
      && (enc.Failure? ==> s.fs == fs && s.result == Failure(enc.error))
      && Build in s.effects
  {
    var path := EncryptedDbPath();
    if path in fs then Step(fs, [], Success(path))
    else
      var plain := h.image(CreateDatabase(fs, DATA_DIR));
      match AppEncryptBytes(h.prims, h.config, plain, password, iv)
      case Failure(e) => Step(fs, [Build], Failure(e))
      case Success(enc) => Step(fs[path := enc], [Build, Encrypt, Write(path)], Success(path))
  }

  /** A second call finds the artifact the first one wrote: no build, no encryption, same path. */
  lemma EnsureIsIdempotent(h: Host, fs: FileSystem, password: string, iv: Bytes, iv': Bytes)
    requires h.prims.Valid()
    requires EnsureEncryptedDb(h, fs, password, iv).result.Success?
    ensures var s := EnsureEncryptedDb(h, fs, password, iv);
      EnsureEncryptedDb(h, s.fs, password, iv') == Step(s.fs, [], s.result)
  {
  }

  /** A freshly written artifact decrypts to the database image it was built from. */
  lemma EnsureThenDecrypt(h: Host, fs: FileSystem, password: string, iv: Bytes)
    requires h.prims.Valid()
    requires EncryptedDbPath() !in fs
    requires Present(h.config.password) && AppDecodes(h.prims, h.config)
    requires h.prims.gzipCompress(h.image(CreateDatabase(fs, DATA_DIR))).Some?
    ensures EnsureEncryptedDb(h, fs, password, iv).result.Success?
    ensures var s := EnsureEncryptedDb(h, fs, password, iv);
      AppDecryptBytes(h.prims, h.config, s.fs[EncryptedDbPath()], password)
        == Success(h.image(CreateDatabase(fs, DATA_DIR)))
  {
    AppRoundTrip(h.prims, h.config, h.image(CreateDatabase(fs, DATA_DIR)), password, iv);
  }

  /** `_decrypt_db_to_temp(password)`: ensure the artifact, decrypt it, and write the plaintext to
      `od_aereo.duckdb` in the new directory `tmpDir` that `tempfile.mkdtemp` returned. */
  function DecryptDbToTemp(h: Host, fs: FileSystem, password: string, iv: Bytes, tmpDir: string): (s: Step<string>)
    requires h.prims.Valid()
    ensures s.result.Success? ==>
      var e := EnsureEncryptedDb(h, fs, password, iv);
      && e.result.Success?
      && s.result.value == Join(tmpDir, DB_FILE)
      && s.result.value in s.fs
      && AppDecryptBytes(h.prims, h.config, e.fs[EncryptedDbPath()], password) == Success(s.fs[s.result.value])
      && s.fs == e.fs[s.result.value := s.fs[s.result.value]]
      && s.effects == e.effects + [Decrypt, Write(s.result.value)]
    ensures EnsureEncryptedDb(h, fs, password, iv).result.Failure? ==>
      s == Step(EnsureEncryptedDb(h, fs, password, iv).fs, EnsureEncryptedDb(h, fs, password, iv).effects,
                Failure(EnsureEncryptedDb(h, fs, password, iv).result.error))
    // A token that does not decrypt stops the call before `mkdtemp`: no scratch file is written.
    ensures var e := EnsureEncryptedDb(h, fs, password, iv);
      e.result.Success? && AppDecryptBytes(h.prims, h.config, e.fs[EncryptedDbPath()], password).Failure? ==>
      s == Step(e.fs, e.effects + [Decrypt], Failure(AppDecryptBytes(h.prims, h.config, e.fs[EncryptedDbPath()], password).error))
  {
    var e := EnsureEncryptedDb(h, fs, password, iv);
    match e.result
    case Failure(err) => Step(e.fs, e.effects, Failure(err))
    case Success(encPath) =>
      match AppDecryptBytes(h.prims, h.config, e.fs[encPath], password)
      case Failure(err) => Step(e.fs, e.effects + [Decrypt], Failure(err))
      case Success(plain) =>
        var tmp := Join(tmpDir, DB_FILE);
        Step(e.fs[tmp := plain], e.effects + [Decrypt, Write(tmp)], Success(tmp))
  }

  /** `f` lies inside the directory `dir`. */
  predicate InDir(f: string, dir: string) {
    |f| > |dir| && f[..|dir| + 1] == dir + "/"
  }

  /** `tempfile.mkdtemp` runs after the artifact is ensured and returns a directory holding no file
      yet; the scratch file is then a new file, and every other file keeps its contents. */
  lemma ScratchFileIsNew(h: Host, fs: FileSystem, password: string, iv: Bytes, tmpDir: string)
    requires h.prims.Valid()
    requires forall f | f in EnsureEncryptedDb(h, fs, password, iv).fs :: !InDir(f, tmpDir)
    ensures var s := DecryptDbToTemp(h, fs, password, iv, tmpDir);
      var e := EnsureEncryptedDb(h, fs, password, iv);
      s.result.Success? ==>
        && s.result.value !in e.fs
        && s.fs.Keys == e.fs.Keys + {s.result.value}
        && (forall f | f in e.fs :: s.fs[f] == e.fs[f])
  {
    var e := EnsureEncryptedDb(h, fs, password, iv);
    var s := DecryptDbToTemp(h, fs, password, iv, tmpDir);
    if s.result.Success? {
      JoinIsInDir(tmpDir, DB_FILE);
      AddNewFile(e.fs, s.result.value, s.fs[s.result.value]);
    }
  }

  lemma JoinIsInDir(dir: string, name: string)
    ensures InDir(Join(dir, name), dir)
  {
    assert Join(dir, name)[..|dir| + 1] == dir + "/";
  }

  lemma AddNewFile(fs: FileSystem, f: string, contents: Bytes)
    requires f !in fs
    ensures fs[f := contents].Keys == fs.Keys + {f}
    ensures forall g | g in fs :: fs[f := contents][g] == fs[g]
  {
  }

  /** Starting without an artifact, the scratch copy holds exactly the database image built from
      the sources (given that compression succeeded). */
  lemma FirstStartScratchCopy(h: Host, fs: FileSystem, password: string, iv: Bytes, tmpDir: string)
    requires h.prims.Valid()
    requires EncryptedDbPath() !in fs
    requires Present(h.config.password) && AppDecodes(h.prims, h.config)
    requires h.prims.gzipCompress(h.image(CreateDatabase(fs, DATA_DIR))).Some?
    ensures var s := DecryptDbToTemp(h, fs, password, iv, tmpDir);
      && s.result == Success(Join(tmpDir, DB_FILE))
      && s.fs[Join(tmpDir, DB_FILE)] == h.image(CreateDatabase(fs, DATA_DIR))
      && s.effects == [Build, Encrypt, Write(EncryptedDbPath()), Decrypt, Write(Join(tmpDir, DB_FILE))]
  {
    EnsureThenDecrypt(h, fs, password, iv);
    var plain := h.image(CreateDatabase(fs, DATA_DIR));
    assert EnsureEncryptedDb(h, fs, password, iv).effects == [Build, Encrypt, Write(EncryptedDbPath())];
    DecryptAfterEnsure(h, fs, password, iv, tmpDir, plain);
  }

  /** Once the artifact is ensured and decrypts to `plain`, the scratch copy is `plain`. */
  lemma DecryptAfterEnsure(h: Host, fs: FileSystem, password: string, iv: Bytes, tmpDir: string, plain: Bytes)
    requires h.prims.Valid()
    requires EnsureEncryptedDb(h, fs, password, iv).result.Success?
    requires AppDecryptBytes(h.prims, h.config, EnsureEncryptedDb(h, fs, password, iv).fs[EncryptedDbPath()], password)
      == Success(plain)
    ensures var s := DecryptDbToTemp(h, fs, password, iv, tmpDir);
      && s.result == Success(Join(tmpDir, DB_FILE))
      && s.fs[Join(tmpDir, DB_FILE)] == plain
      && s.effects == EnsureEncryptedDb(h, fs, password, iv).effects + [Decrypt, Write(Join(tmpDir, DB_FILE))]
  {
  }

  /** A DuckDB connection: a new identity per `duckdb.connect`, and the file it was opened on. */
  datatype Handle = Handle(id: nat, path: string)

  /** The dictionary `{'path': ..., 'con': ...}` that `_db_state` returns and the cache keeps. */
  datatype DbRecord = DbRecord(path: string, con: Handle)

  /** The process: files, the cached record (absent until `_db_state` first succeeds), the handles
      nobody has closed, and the next handle identity. */
  datatype AppState = AppState(fs: FileSystem, cache: Option<DbRecord>, open: set<Handle>, nextId: nat)

  /** The cached record's handle is a connection to the record's own path. */
  predicate Coherent(s: AppState) {
    s.cache.Some? ==> s.cache.value.con.path == s.cache.value.path
  }

  datatype Outcome<T> = Outcome(state: AppState, effects: seq<Effect>, result: Result<T, Error>)

  /** `_db_state()` on its first successful run: check the configuration, decrypt to a scratch file,
      connect to it. A failure is not cached (`st.cache_resource` keeps only returned values). */
  function DbState(h: Host, s: AppState, iv: Bytes, tmpDir: string): (o: Outcome<DbRecord>)
    requires h.prims.Valid()
    ensures o.result.Success? ==>
      && GetFilesPassword(h.config).Success?
      && o.result.value == DbRecord(Join(tmpDir, DB_FILE), Handle(s.nextId, Join(tmpDir, DB_FILE)))
      && o.state.cache == Some(o.result.value)
      && o.state.open == s.open + {o.result.value.con}
      && o.state.nextId == s.nextId + 1
      && Decrypt in o.effects
    ensures o.result.Failure? ==> o.state.cache == s.cache && o.state.open == s.open
    ensures GetFilesPassword(h.config).Failure? ==> o == Outcome(s, [], Failure(GetFilesPassword(h.config).error))
    // The scratch copy is made with the password `get_files_password` returned, then connected to.
    ensures GetFilesPassword(h.config).Success? ==>
      var dd := DecryptDbToTemp(h, s.fs, GetFilesPassword(h.config).value, iv, tmpDir);
      && o.state.fs == dd.fs
      && (o.result.Success? <==> dd.result.Success?)
      && (dd.result.Success? ==>
            o.result.value.path == dd.result.value && o.effects == dd.effects + [Connect(dd.result.value)])
      && (dd.result.Failure? ==> o.result == Failure(dd.result.error) && o.effects == dd.effects)
  {
    match GetFilesPassword(h.config)
    case Failure(e) => Outcome(s, [], Failure(e))
    case Success(pwd) =>
      var d := DecryptDbToTemp(h, s.fs, pwd, iv, tmpDir);
      match d.result
      case Failure(e) => Outcome(s.(fs := d.fs), d.effects, Failure(e))
      case Success(path) =>
        var con := Handle(s.nextId, path);
        var rec := DbRecord(path, con);
        Outcome(AppState(d.fs, Some(rec), s.open + {con}, s.nextId + 1), d.effects + [Connect(path)], Success(rec))
  }

  /** The file a cached record names holds the decryption of the artifact, under the configured
      password, as `_ensure_encrypted_duckdb` left it. */
  lemma DbStateScratchIsPlaintext(h: Host, s: AppState, iv: Bytes, tmpDir: string)
    requires h.prims.Valid()
    ensures var o := DbState(h, s, iv, tmpDir);
      o.result.Success? ==>
      var e := EnsureEncryptedDb(h, s.fs, h.config.password.value, iv);
      && h.config.password.Some?
      && o.result.value.path in o.state.fs
      && e.result.Success?
      && AppDecryptBytes(h.prims, h.config, e.fs[EncryptedDbPath()], h.config.password.value)
         == Success(o.state.fs[o.result.value.path])
  {
  }

  /** The `SELECT 1` probe of `get_duckdb_connection` and its reconnect path on the cached record. */
  function Probe(s: AppState): (o: Outcome<Handle>)
    requires s.cache.Some?
    ensures s.cache.value.con in s.open ==> o == Outcome(s, [], Success(s.cache.value.con))
    ensures s.cache.value.con !in s.open ==>
      var renewed := Handle(s.nextId, s.cache.value.path);
      && o.result == Success(renewed)
      && o.state == AppState(s.fs, Some(DbRecord(s.cache.value.path, renewed)), s.open + {renewed}, s.nextId + 1)
      && o.effects == [Connect(s.cache.value.path)]
  {
    var rec := s.cache.value;
    if rec.con in s.open then Outcome(s, [], Success(rec.con))
    else
      var renewed := Handle(s.nextId, rec.path);
      Outcome(s.(cache := Some(DbRecord(rec.path, renewed)), open := s.open + {renewed}, nextId := s.nextId + 1),
              [Connect(rec.path)], Success(renewed))
  }

  /** `get_duckdb_connection()`: the cached handle if it answers, else a new handle on the SAME
      scratch file, stored back into the cached record. Only the first successful call decrypts. */
  function GetDuckdbConnection(h: Host, s: AppState, iv: Bytes, tmpDir: string): (o: Outcome<Handle>)
    requires h.prims.Valid()
    ensures Coherent(s) ==> Coherent(o.state)
    ensures o.result.Success? ==>
      && o.state.cache.Some? && o.state.cache.value.con == o.result.value
      && o.result.value in o.state.open
    ensures o.result.Failure? ==> s.cache.None? && o.state.cache.None?
    ensures s.cache.Some? ==>
      && o.result.Success?
      && o.state.fs == s.fs
      && o.state.cache.value.path == s.cache.value.path
      && Decrypt !in o.effects && Build !in o.effects && Encrypt !in o.effects
    ensures s.cache.Some? && s.cache.value.con in s.open ==> o == Outcome(s, [], Success(s.cache.value.con))
    // The first call is `_db_state`'s run: its files, its effects, and the connection it opened.
    ensures s.cache.None? ==>
      var d := DbState(h, s, iv, tmpDir);
      && o.state == d.state && o.effects == d.effects
      && (o.result.Success? <==> d.result.Success?)
      && (d.result.Success? ==> o.result.value == d.result.value.con)
  {
    if s.cache.Some? then Probe(s)
    else
      var d := DbState(h, s, iv, tmpDir);
      match d.result
      case Failure(e) => Outcome(d.state, d.effects, Failure(e))
      case Success(_) =>
        var p := Probe(d.state);
        Outcome(p.state, d.effects + p.effects, p.result)
  }

  /** Identities below `nextId` are taken: every open or cached handle has one. */
  ghost predicate HandlesIssued(s: AppState) {
    && (forall c | c in s.open :: c.id < s.nextId)
    && (s.cache.Some? ==> s.cache.value.con.id < s.nextId)
  }

  /** A reconnect hands out a handle no one holds: it is neither open nor the stale cached one. */
  lemma ReconnectIsFresh(h: Host, s: AppState, iv: Bytes, tmpDir: string)
    requires h.prims.Valid()
    requires HandlesIssued(s)
    requires s.cache.Some? && s.cache.value.con !in s.open
    ensures var o := GetDuckdbConnection(h, s, iv, tmpDir);
      && o.result.value !in s.open
      && o.result.value != s.cache.value.con
      && HandlesIssued(o.state)
  {
  }

  /** What happens to the process between requests: a call, some code path closing a handle, or
      `st.cache_resource.clear()`, which the query fallback runs before reconnecting. */
  datatype Event = Call(iv: Bytes, tmpDir: string) | CloseHandle(con: Handle) | ClearCache

  function Apply(h: Host, s: AppState, e: Event): (AppState, seq<Effect>)
    requires h.prims.Valid()
  {
    match e
    case Call(iv, tmpDir) =>
      var o := GetDuckdbConnection(h, s, iv, tmpDir);
      (o.state, o.effects)
    case CloseHandle(con) => (s.(open := s.open - {con}), [])
    case ClearCache => (s.(cache := None), [])
  }

  function Run(h: Host, s: AppState, events: seq<Event>): (AppState, seq<Effect>)
    requires h.prims.Valid()
    decreases |events|
  {
    if |events| == 0 then (s, [])
    else
      var (s1, e1) := Apply(h, s, events[0]);
      var (s2, e2) := Run(h, s1, events[1..]);
      (s2, e1 + e2)
  }

  /** A call or a closed handle keeps every identity below `nextId`. */
  lemma ApplyKeepsHandlesIssued(h: Host, s: AppState, e: Event)
    requires h.prims.Valid()
    requires HandlesIssued(s)
    ensures HandlesIssued(Apply(h, s, e).0)
  {
  }

  lemma {:induction false} RunKeepsHandlesIssued(h: Host, s: AppState, events: seq<Event>)
    requires h.prims.Valid()
    requires HandlesIssued(s)
    ensures HandlesIssued(Run(h, s, events).0)
    decreases |events|
  {
    if |events| > 0 {
      ApplyKeepsHandlesIssued(h, s, events[0]);
      RunKeepsHandlesIssued(h, Apply(h, s, events[0]).0, events[1..]);
    }
  }

  /** In every state the process reaches from its start (nothing cached, no handle), a reconnect
      hands out a handle no one holds. */
  lemma ReachableReconnectIsFresh(h: Host, fs: FileSystem, events: seq<Event>, iv: Bytes, tmpDir: string)
    requires h.prims.Valid()
    requires var s := Run(h, AppState(fs, None, {}, 0), events).0;
      s.cache.Some? && s.cache.value.con !in s.open
    ensures var s := Run(h, AppState(fs, None, {}, 0), events).0;
      var o := GetDuckdbConnection(h, s, iv, tmpDir);
      && o.result.value !in s.open
      && o.result.value != s.cache.value.con
  {
    RunKeepsHandlesIssued(h, AppState(fs, None, {}, 0), events);
    ReconnectIsFresh(h, Run(h, AppState(fs, None, {}, 0), events).0, iv, tmpDir);
  }

  /** Once a record is cached, no sequence of calls and closed handles without a cache clear changes
      its path or the files, and none decrypts, builds or encrypts again. */
  lemma {:induction false} CachedRecordIsStable(h: Host, s: AppState, events: seq<Event>)
    requires h.prims.Valid()
    requires s.cache.Some?
    requires forall i | 0 <= i < |events| :: !events[i].ClearCache?
    ensures var (s', effects) := Run(h, s, events);
      && s'.cache.Some?
      && s'.cache.value.path == s.cache.value.path
      && s'.fs == s.fs
      && Decrypt !in effects && Build !in effects && Encrypt !in effects
    decreases |events|
  {
    if |events| > 0 {
      var (s1, e1) := Apply(h, s, events[0]);
      assert forall i | 0 <= i < |events[1..]| :: events[1..][i] == events[i + 1];
      CachedRecordIsStable(h, s1, events[1..]);
    }
  }

  /** A cache clear forgets the record: the next successful call decrypts the artifact again into
      the new scratch directory and connects there, whatever path the old record named. */
  lemma ClearedCacheDecryptsAgain(h: Host, s: AppState, iv: Bytes, tmpDir: string)
    requires h.prims.Valid()
    ensures var cleared := Apply(h, s, ClearCache).0;
      var o := GetDuckdbConnection(h, cleared, iv, tmpDir);
      && cleared.cache.None?
      && (o.result.Success? ==>
            && Decrypt in o.effects
            && o.state.cache.value.path == Join(tmpDir, DB_FILE)
            && o.result.value.path == Join(tmpDir, DB_FILE))
  {
  }

  /** The build tool's `build_encrypted_db()`: read the secrets, stop before touching any file if the
      password is missing, then ALWAYS build, encrypt and overwrite the artifact. */
  function BuildEncryptedDb(p: Primitives, file: Option<map<string, string>>, env: map<string, string>,
                            image: Tables -> Bytes, fs: FileSystem, iv: Bytes): (s: Step<string>)
    requires p.Valid()
    ensures !Present(ReadSecrets(file, env)[FILES_PASSWORD]) ==> s == Step(fs, [], Failure(MissingPassword))
    ensures Present(ReadSecrets(file, env)[FILES_PASSWORD]) ==>
      var enc := ToolEncryptBytes(p, image(CreateDatabase(fs, DATA_DIR)),
                                  ReadSecrets(file, env)[FILES_PASSWORD].value, ReadSecrets(file, env), iv);
      && Build in s.effects
      && (enc.Success? ==> s.fs == fs[EncryptedDbPath() := enc.value]
                           && s.effects == [Build, Encrypt, Write(EncryptedDbPath())]
                           && s.result == Success(EncryptedDbPath()))
      && (enc.Failure? ==> s.fs == fs && s.result == Failure(enc.error))
  {
    var secrets := ReadSecrets(file, env);
    var password := secrets[FILES_PASSWORD];
    if !Present(password) then Step(fs, [], Failure(MissingPassword))
    else
      var path := EncryptedDbPath();
      var plain := image(CreateDatabase(fs, DATA_DIR));
      match ToolEncryptBytes(p, plain, password.value, secrets, iv)
      case Failure(e) => Step(fs, [Build], Failure(e))
      case Success(enc) => Step(fs[path := enc], [Build, Encrypt, Write(path)], Success(path))
  }

  /** Over an existing artifact the dashboard does nothing while the tool (with a password)
      rebuilds and, when encryption succeeds, replaces the artifact with a new token. */
  lemma ToolRebuildsWhereAppKeeps(h: Host, file: Option<map<string, string>>, env: map<string, string>,
                                  fs: FileSystem, password: string, iv: Bytes)
    requires h.prims.Valid()
    requires EncryptedDbPath() in fs
    requires Present(ReadSecrets(file, env)[FILES_PASSWORD])
    ensures EnsureEncryptedDb(h, fs, password, iv).effects == []
    ensures EnsureEncryptedDb(h, fs, password, iv).fs == fs
    ensures Build in BuildEncryptedDb(h.prims, file, env, h.image, fs, iv).effects
    ensures var t := BuildEncryptedDb(h.prims, file, env, h.image, fs, iv);
      t.result.Success? ==> t.effects == [Build, Encrypt, Write(EncryptedDbPath())]
    ensures var t := BuildEncryptedDb(h.prims, file, env, h.image, fs, iv);
      t.result.Success? ==> h.prims.fernetDecrypt(
        ToolDeriveKey(h.prims, ReadSecrets(file, env)[FILES_PASSWORD].value, ReadSecrets(file, env)).value.fernetKey,
        t.fs[EncryptedDbPath()]) == Some(CompressOrKeep(h.prims, h.image(CreateDatabase(fs, DATA_DIR))).bytes)
  {
  }

  /** An existing artifact that decrypts under the password yields its plaintext as the scratch
      copy, without building anything. */
  lemma ExistingArtifactOpens(h: Host, fs: FileSystem, password: string, iv: Bytes, tmpDir: string, plain: Bytes)
    requires h.prims.Valid()
    requires EncryptedDbPath() in fs
    requires AppDecryptBytes(h.prims, h.config, fs[EncryptedDbPath()], password) == Success(plain)
    ensures var s := DecryptDbToTemp(h, fs, password, iv, tmpDir);
      && s.result == Success(Join(tmpDir, DB_FILE))
      && s.fs == fs[Join(tmpDir, DB_FILE) := plain]
      && s.effects == [Decrypt, Write(Join(tmpDir, DB_FILE))]
  {
    assert EnsureEncryptedDb(h, fs, password, iv) == Step(fs, [], Success(EncryptedDbPath()));
  }

  /** The token the tool writes decrypts in the dashboard to the database image. */
  lemma ToolTokenDecryptsInApp(h: Host, file: Option<map<string, string>>, env: map<string, string>,
                               fs: FileSystem, iv: Bytes)
    requires h.prims.Valid()
    requires Corresponds(ReadSecrets(file, env), h.config)
    requires h.config.password == ReadSecrets(file, env)[FILES_PASSWORD] && Present(h.config.password)
    requires AppDecodes(h.prims, h.config)
    requires h.prims.gzipCompress(h.image(CreateDatabase(fs, DATA_DIR))).Some?
    ensures BuildEncryptedDb(h.prims, file, env, h.image, fs, iv).result.Success?
    ensures var built := BuildEncryptedDb(h.prims, file, env, h.image, fs, iv);
      && EncryptedDbPath() in built.fs
      && AppDecryptBytes(h.prims, h.config, built.fs[EncryptedDbPath()], h.config.password.value)
         == Success(h.image(CreateDatabase(fs, DATA_DIR)))
  {
    var d := ReadSecrets(file, env);
    var pw := d[FILES_PASSWORD].value;
    ToolToAppRoundTrip(h.prims, h.config, d, h.image(CreateDatabase(fs, DATA_DIR)), pw, iv);
  }
}

=== FILE: builder.dfy ===
/** `_create_duckdb_and_import_all_data`: a database built from whichever of twelve source files exist.
    A table is modelled by the format it was read with and the bytes of its source file. */
module Builder {
  import opened Bytes

  /** Files by path, relative to the repository root. */
  type FileSystem = map<string, Bytes>

  /** `os.path.join` of relative POSIX components. */
  function Join(a: string, b: string): string {
    a + "/" + b
  }

  function JoinAll(root: string, parts: seq<string>): string
    decreases |parts|
  {
    if |parts| == 0 then root else JoinAll(Join(root, parts[0]), parts[1..])
  }

  /** `read_csv_auto(?, header=true)` or `read_parquet(?)`. */
  datatype Format = Csv | Parquet

  datatype Table = Table(format: Format, contents: Bytes)

  /** The tables of a database, by name. */
  type Tables = map<string, Table>

  /** One (folder, file, table) entry of the import; `folder` is relative to the data directory. */
  datatype Source = Source(folder: seq<string>, file: string, format: Format, table: string)

  const DATA_DIR := "Dados"

  const POR_MUNICIPIO := ["Resultados", "Pares OD - Por Municipio - Matriz Infra S.A. - 2019"]
  const AGREGACAO_UTP := ["Resultados", "Pares OD - Agregação UTP - Matriz Infra S.A. - 2019"]
  const MUNICIPIO_CENTRALIDADE := ["Resultados", "Pares OD - Municipio x Centralidade"]

  /** The twelve imports, in the order they run: three inputs, then three results per grouping. */
  const SourceTableMap: seq<Source> := [
    Source(["Entrada"], "mun_UTPs.csv", Csv, "mun_utps"),
    Source(["Entrada"], "centralidades.csv", Csv, "centralidades"),
    Source(["Entrada"], "aeroportos.parquet", Parquet, "aeroportos"),
    Source(POR_MUNICIPIO, "Voos Comerciais.parquet", Parquet, "por_municipio_voos_comerciais"),
    Source(POR_MUNICIPIO, "Voos Executivos.parquet", Parquet, "por_municipio_voos_executivos"),
    Source(POR_MUNICIPIO, "classificacao_pares.parquet", Parquet, "por_municipio_classificacao"),
    Source(AGREGACAO_UTP, "Voos Comerciais.parquet", Parquet, "utp_voos_comerciais"),
    Source(AGREGACAO_UTP, "Voos Executivos.parquet", Parquet, "utp_voos_executivos"),
    Source(AGREGACAO_UTP, "classificacao_pares.parquet", Parquet, "utp_classificacao"),
    Source(MUNICIPIO_CENTRALIDADE, "Voos Comerciais.parquet", Parquet, "mun_centralidade_voos_comerciais"),
    Source(MUNICIPIO_CENTRALIDADE, "Voos Executivos.parquet", Parquet, "mun_centralidade_voos_executivos"),
    Source(MUNICIPIO_CENTRALIDADE, "classificacao_pares.parquet", Parquet, "mun_centralidade_classificacao")
  ]

  function SourcePath(dataDir: string, s: Source): string {
    JoinAll(dataDir, s.folder + [s.file])
  }

  /** No two entries of `sources` create the same table. */
  predicate DistinctTables(sources: seq<Source>) {
    forall i, j | 0 <= i < j < |sources| :: sources[i].table != sources[j].table
  }

  /** One `if os.path.exists(path)`: `DROP TABLE IF EXISTS`, then `CREATE TABLE ... AS SELECT *`. */
  function ImportOne(db: Tables, fs: FileSystem, dataDir: string, s: Source): Tables {
    var path := SourcePath(dataDir, s);
    if path in fs then db[s.table := Table(s.format, fs[path])] else db
  }

  /** The tables the entries of `sources` create. */
  function TableNames(sources: seq<Source>): set<string> {
    set i | 0 <= i < |sources| :: sources[i].table
  }

  /** The imports of `sources`, run in order against the database `db`: a `DROP` is always followed
      by its `CREATE`, so no table disappears, and only listed tables can appear. */
  function ImportAll(db: Tables, fs: FileSystem, dataDir: string, sources: seq<Source>): (r: Tables)
    ensures db.Keys <= r.Keys
    ensures r.Keys <= db.Keys + TableNames(sources)
    decreases |sources|
  {
    if |sources| == 0 then db
    else
      var init := sources[..|sources| - 1];
      assert TableNames(init) <= TableNames(sources);
      assert sources[|sources| - 1].table in TableNames(sources);
      ImportOne(ImportAll(db, fs, dataDir, init), fs, dataDir, sources[|sources| - 1])
  }

  /** A table no entry names is left alone. */
  lemma {:induction false} ImportAllOther(db: Tables, fs: FileSystem, dataDir: string, sources: seq<Source>, t: string)
    requires t !in TableNames(sources)
    ensures t in ImportAll(db, fs, dataDir, sources) <==> t in db
    ensures t in db ==> ImportAll(db, fs, dataDir, sources)[t] == db[t]
    decreases |sources|
  {
    if |sources| > 0 {
      var init := sources[..|sources| - 1];
      assert TableNames(init) <= TableNames(sources);
      assert sources[|sources| - 1].table in TableNames(sources);
      ImportAllOther(db, fs, dataDir, init, t);
    }
  }

  /** The table of entry `i` is exactly what that entry's import leaves. */
  lemma {:induction false} ImportAllEntry(db: Tables, fs: FileSystem, dataDir: string, sources: seq<Source>, i: int)
    requires DistinctTables(sources)
    requires 0 <= i < |sources|
    ensures var t := sources[i].table;
      var path := SourcePath(dataDir, sources[i]);
      && (t in ImportAll(db, fs, dataDir, sources) <==> path in fs || t in db)
      && (path in fs ==> ImportAll(db, fs, dataDir, sources)[t] == Table(sources[i].format, fs[path]))
      && (path !in fs && t in db ==> ImportAll(db, fs, dataDir, sources)[t] == db[t])
    decreases |sources|
  {
    var init := sources[..|sources| - 1];
    if i == |sources| - 1 {
      assert sources[i].table !in TableNames(init);
      ImportAllOther(db, fs, dataDir, init, sources[i].table);
    } else {
      assert DistinctTables(init);
      assert init[i] == sources[i];
      ImportAllEntry(db, fs, dataDir, init, i);
    }
  }

  /** With distinct table names, each entry's table exists afterwards iff its source exists or the
      table was already there; an existing source replaces the old table with its own contents,
      a missing one is skipped without error, and every other table is left alone. */
  lemma ImportAllSpec(db: Tables, fs: FileSystem, dataDir: string, sources: seq<Source>)
    requires DistinctTables(sources)
    ensures forall i | 0 <= i < |sources| ::
      var t := sources[i].table;
      var path := SourcePath(dataDir, sources[i]);
      && (t in ImportAll(db, fs, dataDir, sources) <==> path in fs || t in db)
      && (path in fs ==> ImportAll(db, fs, dataDir, sources)[t] == Table(sources[i].format, fs[path]))
      && (path !in fs && t in db ==> ImportAll(db, fs, dataDir, sources)[t] == db[t])
    ensures forall t | t !in TableNames(sources) ::
      && (t in ImportAll(db, fs, dataDir, sources) <==> t in db)
      && (t in db ==> ImportAll(db, fs, dataDir, sources)[t] == db[t])
  {
    forall i | 0 <= i < |sources|
      ensures var t := sources[i].table;
        var path := SourcePath(dataDir, sources[i]);
        && (t in ImportAll(db, fs, dataDir, sources) <==> path in fs || t in db)
        && (path in fs ==> ImportAll(db, fs, dataDir, sources)[t] == Table(sources[i].format, fs[path]))
        && (path !in fs && t in db ==> ImportAll(db, fs, dataDir, sources)[t] == db[t])
    {
      ImportAllEntry(db, fs, dataDir, sources, i);
    }
    forall t | t !in TableNames(sources)
      ensures && (t in ImportAll(db, fs, dataDir, sources) <==> t in db)
              && (t in db ==> ImportAll(db, fs, dataDir, sources)[t] == db[t])
    {
      ImportAllOther(db, fs, dataDir, sources, t);
    }
  }

  /** The twelve table names are pairwise distinct, so the import order does not matter. */
  lemma SourceTableMapDistinct()
    ensures |SourceTableMap| == 12
    ensures DistinctTables(SourceTableMap)
  {
  }

  /** `_create_duckdb_and_import_all_data` on a fresh database file under `dataDir`: a mapped table
      exists iff its source file exists, holding that file's contents read in its format; nothing
      else is created. */
  function CreateDatabase(fs: FileSystem, dataDir: string): (db: Tables)
    ensures forall i | 0 <= i < |SourceTableMap| ::
      && (SourceTableMap[i].table in db <==> SourcePath(dataDir, SourceTableMap[i]) in fs)
      && (SourceTableMap[i].table in db ==>
            db[SourceTableMap[i].table] == Table(SourceTableMap[i].format, fs[SourcePath(dataDir, SourceTableMap[i])]))
    ensures db.Keys <= TableNames(SourceTableMap)
  {
    SourceTableMapDistinct();
    ImportAllSpec(map[], fs, dataDir, SourceTableMap);
    ImportAll(map[], fs, dataDir, SourceTableMap)
  }
}

=== FILE: bytes.dfy ===
/** Byte strings, Python's slice semantics and UTF-8 encoding (RFC 3629) of Python text. */
module Bytes {

  type byte = x: int | 0 <= x < 256

  type Bytes = seq<byte>

  function Min(a: int, b: int): int {
    if a <= b then a else b
  }

  /** Python's `s[:n]`: total, and shorter than `n` when `s` is. */
  function Take<T>(s: seq<T>, n: nat): (r: seq<T>)
    ensures |r| == Min(n, |s|)
    ensures r == s[..|r|]
  {
    s[..Min(n, |s|)]
  }

  /** Python's `s[n:]`: total, and empty when `n` is past the end. */
  function Drop<T>(s: seq<T>, n: nat): (r: seq<T>)
    ensures |r| == |s| - Min(n, |s|)
    ensures Take(s, n) + r == s
  {
    s[Min(n, |s|)..]
  }

  /** The UTF-8 encoding of one Unicode scalar value (section 3 of RFC 3629). */
  function CharUtf8(c: char): (r: Bytes)
    ensures 1 <= |r| <= 4
    ensures (c as int < 0x80) <==> (|r| == 1 && r[0] == c as int)
  {
    var cp := c as int;
    if cp < 0x80 then [cp]
    else if cp < 0x800 then [0xC0 + cp / 0x40, 0x80 + cp % 0x40]
    else if cp < 0x10000 then [0xE0 + cp / 0x1000, 0x80 + (cp / 0x40) % 0x40, 0x80 + cp % 0x40]
    else [0xF0 + cp / 0x40000, 0x80 + (cp / 0x1000) % 0x40, 0x80 + (cp / 0x40) % 0x40, 0x80 + cp % 0x40]
  }

  /** Python's `str.encode()`, whose default codec is UTF-8. */
  function Utf8(s: string): (r: Bytes)
    ensures |s| <= |r| <= 4 * |s|
  {
    if |s| == 0 then [] else Utf8(s[..|s| - 1]) + CharUtf8(s[|s| - 1])
  }

  /** Encoding distributes over concatenation, so `f"{a}_{b}".encode()` is the three encodings joined. */
  lemma {:induction false} Utf8Append(a: string, b: string)
    ensures Utf8(a + b) == Utf8(a) + Utf8(b)
    decreases |b|
  {
    if |b| == 0 {
      assert a + b == a;
    } else {
      var b', last := b[..|b| - 1], b[|b| - 1];
      assert (a + b)[..|a + b| - 1] == a + b';
      assert (a + b)[|a + b| - 1] == last;
      Utf8Append(a, b');
      calc {
        Utf8(a + b);
        Utf8(a + b') + CharUtf8(last);
        Utf8(a) + Utf8(b') + CharUtf8(last);
        Utf8(a) + (Utf8(b') + CharUtf8(last));
        Utf8(a) + Utf8(b);
      }
    }
  }

  predicate IsAscii(s: string) {
    forall i | 0 <= i < |s| :: s[i] as int < 0x80
  }

  /** ASCII text encodes one byte per character, each byte the character's code. */
  lemma {:induction false} AsciiUtf8(s: string)
    requires IsAscii(s)
    ensures |Utf8(s)| == |s|
    ensures forall i | 0 <= i < |s| :: Utf8(s)[i] == s[i] as int
    decreases |s|
  {
    if |s| > 0 {
      var s' := s[..|s| - 1];
      assert IsAscii(s');
      AsciiUtf8(s');
    }
  }
}

=== FILE: dashboard.dfy ===
/** Two pure helpers of the dashboard: the region of a state (`get_regiao_for_uf`) and the
    option filter behind the searchable origin/destination pickers (`filter_options_by_search`). */
module Dashboard {
  import opened Wrappers
  import opened Seqs

  const NORTE: seq<string> := ["AC", "AP", "AM", "PA", "RO", "RR", "TO"]
  const NORDESTE: seq<string> := ["AL", "BA", "CE", "MA", "PB", "PE", "PI", "RN", "SE"]
  const CENTRO_OESTE: seq<string> := ["DF", "GO", "MS", "MT"]
  const SUDESTE: seq<string> := ["ES", "MG", "RJ", "SP"]
  const SUL: seq<string> := ["PR", "RS", "SC"]

  /** The region table, in the order the dictionary literal lists it. */
  const REGIONS: seq<(string, seq<string>)> :=
    [("norte", NORTE), ("nordeste", NORDESTE), ("centro_oeste", CENTRO_OESTE), ("sudeste", SUDESTE), ("sul", SUL)]

  /** The region answered for every code in no list. */
  const DEFAULT_REGION := "sudeste"

  /** The 27 federative units, region by region. */
  const ALL_UFS: seq<string> := NORTE + (NORDESTE + (CENTRO_OESTE + (SUDESTE + SUL)))

  /** The first region (in table order) whose list holds `uf`. */
  function FirstRegionWith(regions: seq<(string, seq<string>)>, uf: string): (r: Option<string>)
    ensures r.None? <==> forall i | 0 <= i < |regions| :: uf !in regions[i].1
    ensures r.Some? ==> exists i | 0 <= i < |regions| ::
      && uf in regions[i].1 && r.value == regions[i].0
      && forall j | 0 <= j < i :: uf !in regions[j].1
    decreases |regions|
  {
    if |regions| == 0 then None
    else if uf in regions[0].1 then Some(regions[0].0)
    else
      var rest := FirstRegionWith(regions[1..], uf);
      assert forall i | 1 <= i < |regions| :: regions[i] == regions[1..][i - 1];
      rest
  }

  /** `get_regiao_for_uf(uf)`: the region whose list contains `uf`, or `sudeste` when none does. */
  function GetRegiaoForUf(uf: string): (r: string)
    ensures r == "norte" <==> uf in NORTE
    ensures r == "nordeste" <==> uf in NORDESTE
    ensures r == "centro_oeste" <==> uf in CENTRO_OESTE
    ensures r == "sul" <==> uf in SUL
    ensures r == "sudeste" <==> uf in SUDESTE || uf !in ALL_UFS
  {
    RegionListsDisjoint();
    RegionTableInOrder(uf);
    FirstRegionWith(REGIONS, uf).GetOr(DEFAULT_REGION)
  }

  /** Walking the table tries the lists one after the other. */
  lemma RegionTableInOrder(uf: string)
    ensures FirstRegionWith(REGIONS, uf) ==
      if uf in NORTE then Some("norte")
      else if uf in NORDESTE then Some("nordeste")
      else if uf in CENTRO_OESTE then Some("centro_oeste")
      else if uf in SUDESTE then Some("sudeste")
      else if uf in SUL then Some("sul")
      else None
  {
    var t0 := REGIONS;
    var t1 := [("nordeste", NORDESTE), ("centro_oeste", CENTRO_OESTE), ("sudeste", SUDESTE), ("sul", SUL)];
    var t2 := [("centro_oeste", CENTRO_OESTE), ("sudeste", SUDESTE), ("sul", SUL)];
    var t3 := [("sudeste", SUDESTE), ("sul", SUL)];
    var t4 := [("sul", SUL)];
    assert t0[1..] == t1 && t1[1..] == t2 && t2[1..] == t3 && t3[1..] == t4 && t4[1..] == [];
    assert FirstRegionWith(t4, uf) == if uf in SUL then Some("sul") else FirstRegionWith([], uf);
    assert FirstRegionWith(t3, uf) == if uf in SUDESTE then Some("sudeste") else FirstRegionWith(t4, uf);
    assert FirstRegionWith(t2, uf) == if uf in CENTRO_OESTE then Some("centro_oeste") else FirstRegionWith(t3, uf);
    assert FirstRegionWith(t1, uf) == if uf in NORDESTE then Some("nordeste") else FirstRegionWith(t2, uf);
  }

  /** No code is listed under two regions. */
  lemma RegionListsDisjoint()
    ensures forall u | u in NORTE :: u !in NORDESTE + (CENTRO_OESTE + (SUDESTE + SUL))
    ensures forall u | u in NORDESTE :: u !in CENTRO_OESTE + (SUDESTE + SUL)
    ensures forall u | u in CENTRO_OESTE :: u !in SUDESTE + SUL
    ensures forall u | u in SUDESTE :: u !in SUL
  {
  }

  /** No list repeats a code. */
  lemma RegionListsDistinct()
    ensures Distinct(NORTE) && Distinct(NORDESTE) && Distinct(CENTRO_OESTE)
    ensures Distinct(SUDESTE) && Distinct(SUL)
  {
  }

  /** The five lists name 27 distinct codes: each list is duplicate-free and no code belongs to
      two regions. */
  lemma RegionsPartitionUfs()
    ensures |ALL_UFS| == 27
    ensures Distinct(ALL_UFS)
  {
    RegionListsDistinct();
    RegionListsDisjoint();
    DistinctConcat(SUDESTE, SUL);
    DistinctConcat(CENTRO_OESTE, SUDESTE + SUL);
    DistinctConcat(NORDESTE, CENTRO_OESTE + (SUDESTE + SUL));
    DistinctConcat(NORTE, NORDESTE + (CENTRO_OESTE + (SUDESTE + SUL)));
  }

  /** `get_regiao_for_uf` is total and answers one of the five regions. */
  lemma RegionIsKnown(uf: string)
    ensures GetRegiaoForUf(uf) in ["norte", "nordeste", "centro_oeste", "sudeste", "sul"]
  {
  }

  /** Python's `needle in text` on strings: `needle` occurs contiguously in `text`
      (the empty string occurs everywhere). */
  predicate Contains(text: string, needle: string) {
    exists k | 0 <= k <= |text| - |needle| :: OccursAt(text, needle, k)
  }

  predicate OccursAt(text: string, needle: string, k: int)
    requires 0 <= k <= |text| - |needle|
  {
    text[k..k + |needle|] == needle
  }

  /** Some search text of an option contains the cleaned term. */
  predicate AnyContains(texts: seq<string>, needle: string) {
    exists i | 0 <= i < |texts| :: Contains(texts[i], needle)
  }

  /** Reference definition: the options, in order, with a search text containing `needle`. */
  function Matching(options: seq<string>, searchTexts: map<string, seq<string>>, needle: string): (r: seq<string>)
    requires forall o | o in options :: o in searchTexts
    ensures IsSubsequence(r, options)
    ensures forall o :: o in r <==> o in options && AnyContains(searchTexts[o], needle)
    ensures forall o | o in r :: multiset(r)[o] == multiset(options)[o]
    decreases |options|
  {
    if |options| == 0 then []
    else
      var init := options[..|options| - 1];
      var last := options[|options| - 1];
      assert options == init + [last];
      var prev := Matching(init, searchTexts, needle);
      if AnyContains(searchTexts[last], needle) then
        SubsequenceExtend(prev, init, last);
        prev + [last]
      else
        SubsequenceExtend(prev, init, last);
        assert IsSubsequence(prev, options) by { assert options[..|options| - 1] == init; }
        prev
  }

  /** `filter_options_by_search(options, search_map, search_term)`. An empty term returns the options
      as they are; otherwise `clean` (the source's `remove_accents` after `lower`, kept abstract)
      cleans the term and each option is kept when one of its search texts contains it. `None`
      stands for the `KeyError` raised on an option missing from the search map. */
  method FilterOptionsBySearch(options: seq<string>, searchTexts: map<string, seq<string>>, term: string,
                               clean: string -> string)
    returns (r: Option<seq<string>>)
    ensures term == [] ==> r == Some(options)
    ensures term != [] ==> (r.None? <==> exists o | o in options :: o !in searchTexts)
    ensures term != [] && r.Some? ==> r.value == Matching(options, searchTexts, clean(term))
  {
    if term == [] {
      return Some(options);
    }
    var needle := clean(term);
    var filtered: seq<string> := [];
    for i := 0 to |options|
      invariant forall o | o in options[..i] :: o in searchTexts
      invariant filtered == Matching(options[..i], searchTexts, needle)
    {
      var option := options[i];
      if option !in searchTexts {
        return None;
      }
      var texts := searchTexts[option];
      var found := false;
      var j := 0;
      while j < |texts| && !found
        invariant 0 <= j <= |texts|
        invariant found <==> exists k | 0 <= k < j :: Contains(texts[k], needle)
      {
        found := Contains(texts[j], needle);
        j := j + 1;
      }
      assert options[..i + 1][..i] == options[..i];
      filtered := if found then filtered + [option] else filtered;
    }
    assert options[..|options|] == options;
    return Some(filtered);
  }
}

=== FILE: envelope.dfy ===
/** `_encrypt_bytes` / `_decrypt_bytes`: gzip (kept as is when compression raises), then Fernet;
    on decryption a failed gunzip falls back to the decrypted bytes while Fernet errors propagate;
    and the decrypt-then-gunzip sequence of the verification script. */
module Envelope {
  import opened Wrappers
  import opened Bytes
  import opened Primitives
  import opened Secrets
  import opened KeyDerivation

  /** What Fernet sealed: the gzip stream of the data, or the data itself when compression raised. */
  datatype Payload = Compressed(bytes: Bytes) | Raw(bytes: Bytes)

  /** `try: compressed = gzip.compress(data) except Exception: compressed = data`. */
  function CompressOrKeep(p: Primitives, data: Bytes): (pl: Payload)
    requires p.Valid()
    ensures pl.Compressed? <==> p.gzipCompress(data).Some?
    ensures pl.Raw? ==> pl.bytes == data
    ensures pl.Compressed? ==> p.gzipDecompress(pl.bytes) == Some(data)
  {
    match p.gzipCompress(data)
    case Some(z) => Compressed(z)
    case None => Raw(data)
  }

  /** `fernet.encrypt(compressed)` under an already derived key. */
  function Seal(p: Primitives, key: Bytes, data: Bytes, iv: Bytes): (token: Bytes)
    requires p.Valid()
    ensures p.fernetDecrypt(key, token) == Some(CompressOrKeep(p, data).bytes)
  {
    p.fernetEncrypt(key, CompressOrKeep(p, data).bytes, iv)
  }

  /** `decrypted = fernet.decrypt(token)`, then `gzip.decompress(decrypted)`, falling back to
      `decrypted` itself when that raises. A Fernet failure is not caught. */
  function Open(p: Primitives, key: Bytes, token: Bytes): (r: Result<Bytes, Error>)
    ensures p.fernetDecrypt(key, token).None? <==> r.Failure?
    ensures r.Failure? ==> r.error == InvalidToken
    ensures r.Success? && p.gzipDecompress(p.fernetDecrypt(key, token).value).None? ==>
      r.value == p.fernetDecrypt(key, token).value
    ensures r.Success? && p.gzipDecompress(p.fernetDecrypt(key, token).value).Some? ==>
      r.value == p.gzipDecompress(p.fernetDecrypt(key, token).value).value
  {
    match p.fernetDecrypt(key, token)
    case None => Failure(InvalidToken)
    case Some(decrypted) => Success(p.gzipDecompress(decrypted).GetOr(decrypted))
  }

  /** Under one key, opening a sealed token returns the data whenever compression succeeded. When it
      failed, the raw data comes back unless it happens to be a gzip stream itself, in which case
      the fallback cannot tell and returns its decompression. */
  lemma SealOpen(p: Primitives, key: Bytes, data: Bytes, iv: Bytes)
    requires p.Valid()
    ensures p.gzipCompress(data).Some? ==> Open(p, key, Seal(p, key, data, iv)) == Success(data)
    ensures p.gzipCompress(data).None? ==>
      Open(p, key, Seal(p, key, data, iv)) == Success(p.gzipDecompress(data).GetOr(data))
  {
  }

  /** The dashboard's `_encrypt_bytes(data, password)`: derive, then seal. */
  function AppEncryptBytes(p: Primitives, c: CryptoConfig, data: Bytes, password: string, iv: Bytes)
    : (r: Result<Bytes, Error>)
    requires p.Valid()
    ensures r.Success? <==> AppDeriveKey(p, password, c).Success?
    ensures r.Failure? ==> r.error == AppDeriveKey(p, password, c).error
    ensures r.Success? ==>
      p.fernetDecrypt(AppDeriveKey(p, password, c).value.fernetKey, r.value) == Some(CompressOrKeep(p, data).bytes)
  {
    var t :- AppDeriveKey(p, password, c);
    Success(Seal(p, t.fernetKey, data, iv))
  }

  /** The dashboard's `_decrypt_bytes(encrypted_data, password)`: derive, then open. */
  function AppDecryptBytes(p: Primitives, c: CryptoConfig, token: Bytes, password: string)
    : (r: Result<Bytes, Error>)
    requires p.Valid()
    ensures AppDeriveKey(p, password, c).Failure? ==> r == Failure(AppDeriveKey(p, password, c).error)
    ensures AppDeriveKey(p, password, c).Success? ==>
      r == Open(p, AppDeriveKey(p, password, c).value.fernetKey, token)
  {
    var t :- AppDeriveKey(p, password, c);
    Open(p, t.fernetKey, token)
  }

  /** `_decrypt_bytes(_encrypt_bytes(data, pw), pw) == data` whenever compression succeeded. */
  lemma AppRoundTrip(p: Primitives, c: CryptoConfig, data: Bytes, password: string, iv: Bytes)
    requires p.Valid()
    requires AppEncryptBytes(p, c, data, password, iv).Success?
    requires p.gzipCompress(data).Some?
    ensures AppDecryptBytes(p, c, AppEncryptBytes(p, c, data, password, iv).value, password) == Success(data)
  {
    SealOpen(p, AppDeriveKey(p, password, c).value.fernetKey, data, iv);
  }

  /** The build tool's `_encrypt_bytes(data, password, config)`. */
  function ToolEncryptBytes(p: Primitives, data: Bytes, password: string, d: SecretsDict, iv: Bytes)
    : (r: Result<Bytes, Error>)
    requires p.Valid()
    ensures r.Success? <==> ToolDeriveKey(p, password, d).Success?
    ensures r.Failure? ==> r.error == ToolDeriveKey(p, password, d).error
    ensures r.Success? ==>
      p.fernetDecrypt(ToolDeriveKey(p, password, d).value.fernetKey, r.value) == Some(CompressOrKeep(p, data).bytes)
  {
    var t :- ToolDeriveKey(p, password, d);
    Success(Seal(p, t.fernetKey, data, iv))
  }

  /** What the build tool encrypts, the dashboard decrypts, provided both read the same optional
      values and the dashboard's configured password is the one the tool used. */
  lemma ToolToAppRoundTrip(p: Primitives, c: CryptoConfig, d: SecretsDict, data: Bytes, password: string, iv: Bytes)
    requires p.Valid()
    requires Corresponds(d, c) && c.password == Some(password) && password != ""
    requires AppDecodes(p, c)
    requires p.gzipCompress(data).Some?
    ensures ToolEncryptBytes(p, data, password, d, iv).Success?
    ensures AppDecryptBytes(p, c, ToolEncryptBytes(p, data, password, d, iv).value, password) == Success(data)
  {
    AppAgreesWithTool(p, password, c, d);
    SealOpen(p, ToolDeriveKey(p, password, d).value.fernetKey, data, iv);
  }

  /** The verification script's recovery: `fernet.decrypt` then `gzip.decompress` in one `try`;
      on any exception `fernet.decrypt` is retried alone, and a second failure reaches the
      script's outer handler. */
  function VerifyRecover(p: Primitives, key: Bytes, enc: Bytes): (r: Result<Bytes, Error>)
    ensures r.Failure? ==> r.error == InvalidToken
  {
    var first := match p.fernetDecrypt(key, enc)
      case None => None
      case Some(decrypted) => p.gzipDecompress(decrypted);
    match first
    case Some(plain) => Success(plain)
    case None =>
      match p.fernetDecrypt(key, enc)
      case Some(decrypted) => Success(decrypted)
      case None => Failure(InvalidToken)
  }

  /** Decryption is deterministic, so the retry adds nothing: the script recovers exactly what the
      dashboard's `_decrypt_bytes` recovers, and fails exactly when it fails. */
  lemma VerifyRecoverIsOpen(p: Primitives, key: Bytes, enc: Bytes)
    ensures VerifyRecover(p, key, enc) == Open(p, key, enc)
  {
  }

  /** The verification script end to end: derive with its fixed configuration (which always
      succeeds), then recover. */
  function VerifyDecrypt(p: Primitives, enc: Bytes): (r: Result<Bytes, Error>)
    requires p.Valid()
    ensures r.Failure? ==> r.error == InvalidToken
    ensures r == Open(p, ToolDeriveKey(p, "teste123", VerifyConfig).value.fernetKey, enc)
  {
    VerifyScenario(p);
    var key := ToolDeriveKey(p, "teste123", VerifyConfig).value.fernetKey;
    VerifyRecoverIsOpen(p, key, enc);
    VerifyRecover(p, key, enc)
  }
}

=== FILE: keyderivation.dfy ===
/** `_decode_b64_value`, `_generate_fixed_entropy` and `_derive_multilayer_key`: the dashboard's
    copy, and the copy shared word for word by the build tool and the verification script. */
module KeyDerivation {
  import opened Wrappers
  import opened Bytes
  import opened Primitives
  import opened Secrets

  const B64_PREFIX := "b64:"
  const ENTROPY_TAG := "od_aero_fixed_entropy_2024"
  /** The HKDF `info`, the bytes literal `b"od_aero_final_key_derivation_2024"`. */
  const HKDF_INFO: Bytes := [
    0x6f, 0x64, 0x5f, 0x61, 0x65, 0x72, 0x6f, 0x5f, 0x66, 0x69, 0x6e, 0x61, 0x6c, 0x5f, 0x6b, 0x65, 0x79,
    0x5f, 0x64, 0x65, 0x72, 0x69, 0x76, 0x61, 0x74, 0x69, 0x6f, 0x6e, 0x5f, 0x32, 0x30, 0x32, 0x34]

  /** `value.startswith('b64:')`. */
  predicate HasB64Prefix(value: string) {
    |value| >= 4 && value[..4] == B64_PREFIX
  }

  /** The dashboard's `_decode_b64_value` (its argument is always a string). */
  function DecodeB64Value(p: Primitives, value: string): (r: Option<Bytes>)
    ensures HasB64Prefix(value) ==> r == p.b64Decode(value[4..])
    ensures !HasB64Prefix(value) ==> r == Some(Utf8(value))
  {
    if HasB64Prefix(value) then p.b64Decode(value[4..]) else Some(Utf8(value))
  }

  /** The build tool's `_decode_b64_value`, which also accepts `None` (`(value or '').encode()`). */
  function DecodeB64ValueOrNone(p: Primitives, value: Option<string>): (r: Option<Bytes>)
    ensures value.None? ==> r == Some([])
    ensures value.Some? && HasB64Prefix(value.value) ==> r == p.b64Decode(value.value[4..])
    ensures value.Some? && !HasB64Prefix(value.value) ==> r == Some(Utf8(value.value))
  {
    match value
    case None => Some([])
    case Some(s) => DecodeB64Value(p, s)
  }

  /** `'_'.join([entropy_factor, salt_primary, salt_secondary, 'od_aero_fixed_entropy_2024'])`. */
  function EntropyText(entropyFactor: string, saltPrimary: string, saltSecondary: string): string {
    entropyFactor + "_" + saltPrimary + "_" + saltSecondary + "_" + ENTROPY_TAG
  }

  /** `_generate_fixed_entropy`: hashes the raw configuration text, so a `b64:` tag is hashed as written. */
  function FixedEntropy(p: Primitives, entropyFactor: string, saltPrimary: string, saltSecondary: string): (fe: Bytes)
    requires p.Valid()
    ensures |fe| == 32
    ensures fe == p.sha256(Utf8(entropyFactor) + [0x5F] + Utf8(saltPrimary) + [0x5F] + Utf8(saltSecondary)
                           + [0x5F] + Utf8(ENTROPY_TAG))
  {
    var text := EntropyText(entropyFactor, saltPrimary, saltSecondary);
    assert Utf8("_") == [0x5F];
    Utf8Append(entropyFactor + "_" + saltPrimary + "_" + saltSecondary + "_", ENTROPY_TAG);
    Utf8Append(entropyFactor + "_" + saltPrimary + "_" + saltSecondary, "_");
    Utf8Append(entropyFactor + "_" + saltPrimary + "_", saltSecondary);
    Utf8Append(entropyFactor + "_" + saltPrimary, "_");
    Utf8Append(entropyFactor + "_", saltPrimary);
    Utf8Append(entropyFactor, "_");
    p.sha256(Utf8(text))
  }

  /** The four byte fields after decoding. */
  datatype Decoded = Decoded(saltPrimary: Bytes, saltSecondary: Bytes, pepper: Bytes, integrityKey: Bytes)

  /** Every value the chain computes, so that its wiring can be stated. */
  datatype KeyTrace = KeyTrace(
    fixedEntropy: Bytes,
    pbkdf2Input: Bytes,
    pbkdf2Salt: Bytes,
    k1: Bytes,
    scryptSalt: Bytes,
    k2: Bytes,
    hkdfSalt: Bytes,
    hkdfIkm: Bytes,
    finalKey: Bytes,
    fernetKey: Bytes)

  /** The three chained derivations, once the inputs are decoded. */
  function Chain(p: Primitives, password: string, entropyFactor: string, saltPrimaryText: string,
                 saltSecondaryText: string, dec: Decoded): (t: KeyTrace)
    requires p.Valid()
    ensures t.fixedEntropy == FixedEntropy(p, entropyFactor, saltPrimaryText, saltSecondaryText)
    ensures t.pbkdf2Input == Utf8(password) + [0x5F] + Utf8(entropyFactor)
    // PBKDF2: the primary salt, then the FIRST half of the fixed entropy.
    ensures |t.pbkdf2Salt| == |dec.saltPrimary| + 16
    ensures t.pbkdf2Salt[..|dec.saltPrimary|] == dec.saltPrimary
    ensures t.k1 == p.pbkdf2HmacSha512(t.pbkdf2Input, t.pbkdf2Salt, 200000, 64) && |t.k1| == 64
    // scrypt: the first 32 bytes of k1; the secondary salt, then at most 16 bytes of pepper.
    ensures |t.scryptSalt| == |dec.saltSecondary| + Min(16, |dec.pepper|)
    ensures t.scryptSalt[..|dec.saltSecondary|] == dec.saltSecondary
    ensures t.scryptSalt[|dec.saltSecondary|..] == dec.pepper[..Min(16, |dec.pepper|)]
    ensures t.k2 == p.scrypt(t.k1[..32], t.scryptSalt, 16384, 8, 1, 32) && |t.k2| == 32
    // HKDF: the integrity key, then the SECOND half of the fixed entropy; k2 followed by all of pepper.
    ensures |t.hkdfSalt| == |dec.integrityKey| + 16
    ensures t.hkdfSalt[..|dec.integrityKey|] == dec.integrityKey
    ensures t.pbkdf2Salt[|dec.saltPrimary|..] + t.hkdfSalt[|dec.integrityKey|..] == t.fixedEntropy
    ensures |t.hkdfIkm| == 32 + |dec.pepper| && t.hkdfIkm[..32] == t.k2 && t.hkdfIkm[32..] == dec.pepper
    ensures t.finalKey == p.hkdfSha256(t.hkdfIkm, t.hkdfSalt, HKDF_INFO, 32) && |t.finalKey| == 32
    // The Fernet key is the base64url text of the final key: 44 characters.
    ensures t.fernetKey == p.urlsafeB64Encode(t.finalKey) && |t.fernetKey| == 44
  {
    var fe := FixedEntropy(p, entropyFactor, saltPrimaryText, saltSecondaryText);
    var pbkdf2Input := Utf8(password + "_" + entropyFactor);
    assert pbkdf2Input == Utf8(password) + [0x5F] + Utf8(entropyFactor) by {
      assert Utf8("_") == [0x5F];
      Utf8Append(password + "_", entropyFactor);
      Utf8Append(password, "_");
    }
    assert |Take(fe, 16)| == 16 && |Drop(fe, 16)| == 16;
    var pbkdf2Salt := dec.saltPrimary + Take(fe, 16);
    var k1 := p.pbkdf2HmacSha512(pbkdf2Input, pbkdf2Salt, PBKDF2_ITERATIONS, PBKDF2_LENGTH);
    var scryptSalt := dec.saltSecondary + Take(dec.pepper, 16);
    assert Take(k1, 32) == k1[..32];
    var k2 := p.scrypt(Take(k1, 32), scryptSalt, SCRYPT_N, SCRYPT_R, SCRYPT_P, SCRYPT_LENGTH);
    var hkdfSalt := dec.integrityKey + Drop(fe, 16);
    var hkdfIkm := k2 + dec.pepper;
    var finalKey := p.hkdfSha256(hkdfIkm, hkdfSalt, HKDF_INFO, HKDF_LENGTH);
    KeyTrace(fe, pbkdf2Input, pbkdf2Salt, k1, scryptSalt, k2, hkdfSalt, hkdfIkm, finalKey,
             p.urlsafeB64Encode(finalKey))
  }

  /** A failed decode becomes the error that stops the derivation. */
  function Decode(p: Primitives, value: string): Result<Bytes, Error> {
    match DecodeB64Value(p, value)
    case Some(b) => Success(b)
    case None => Failure(DecodeError)
  }

  function DecodeOrNone(p: Primitives, value: Option<string>): Result<Bytes, Error> {
    match DecodeB64ValueOrNone(p, value)
    case Some(b) => Success(b)
    case None => Failure(DecodeError)
  }

  /** All four byte fields of the dashboard's configuration decode. */
  predicate AppDecodes(p: Primitives, c: CryptoConfig) {
    && DecodeB64Value(p, c.saltPrimary).Some?
    && DecodeB64Value(p, c.saltSecondary).Some?
    && DecodeB64Value(p, c.pepper).Some?
    && DecodeB64Value(p, c.integrityKey).Some?
  }

  /** The four byte fields of the dashboard's configuration, decoded. */
  function AppDecoded(p: Primitives, c: CryptoConfig): Decoded
    requires AppDecodes(p, c)
  {
    Decoded(DecodeB64Value(p, c.saltPrimary).value, DecodeB64Value(p, c.saltSecondary).value,
            DecodeB64Value(p, c.pepper).value, DecodeB64Value(p, c.integrityKey).value)
  }

  /** The dashboard's `_derive_multilayer_key(password)` over the configuration `_get_crypto_config`
      returns. It stops on the CONFIGURED password being empty, not on the argument, and stops on a
      failed decode; no derivation runs in either case. The argument only feeds PBKDF2. */
  function AppDeriveKey(p: Primitives, password: string, c: CryptoConfig): (r: Result<KeyTrace, Error>)
    requires p.Valid()
    ensures !Present(c.password) ==> r == Failure(MissingPassword)
    ensures Present(c.password) ==> (r.Success? <==> AppDecodes(p, c))
    ensures Present(c.password) && !AppDecodes(p, c) ==> r == Failure(DecodeError)
    // Each decoded setting feeds its own stage; the entropy hashes the undecoded texts.
    ensures r.Success? ==>
      r.value == Chain(p, password, c.entropyFactor, c.saltPrimary, c.saltSecondary, AppDecoded(p, c))
    ensures r.Success? ==> |r.value.fernetKey| == 44
  {
    if !Present(c.password) then Failure(MissingPassword)
    else
      var saltPrimary :- Decode(p, c.saltPrimary);
      var saltSecondary :- Decode(p, c.saltSecondary);
      var pepper :- Decode(p, c.pepper);
      var integrityKey :- Decode(p, c.integrityKey);
      Success(Chain(p, password, c.entropyFactor, c.saltPrimary, c.saltSecondary,
                    Decoded(saltPrimary, saltSecondary, pepper, integrityKey)))
  }

  /** `'_'.join(...)` of `_generate_fixed_entropy` over the build tool's dictionary; a `None`
      component raises `TypeError`. */
  function ToolFixedEntropyText(d: SecretsDict): (r: Result<(string, string, string), Error>)
    ensures r.Success? <==>
      DictGet(d, SYSTEM_ENTROPY_FACTOR).Some? && DictGet(d, CRYPTO_SALT_PRIMARY).Some?
      && DictGet(d, CRYPTO_SALT_SECONDARY).Some?
    ensures r.Failure? ==> r.error == TypeError
    // The pieces joined around `_`, in the order entropy factor, primary salt, secondary salt.
    ensures r.Success? ==>
      r.value == (DictGet(d, SYSTEM_ENTROPY_FACTOR).value, DictGet(d, CRYPTO_SALT_PRIMARY).value,
                  DictGet(d, CRYPTO_SALT_SECONDARY).value)
    ensures r.Success? ==>
      EntropyText(r.value.0, r.value.1, r.value.2)
        == DictGet(d, SYSTEM_ENTROPY_FACTOR).value + "_" + DictGet(d, CRYPTO_SALT_PRIMARY).value + "_"
           + DictGet(d, CRYPTO_SALT_SECONDARY).value + "_" + "od_aero_fixed_entropy_2024"
  {
    match (DictGet(d, SYSTEM_ENTROPY_FACTOR), DictGet(d, CRYPTO_SALT_PRIMARY), DictGet(d, CRYPTO_SALT_SECONDARY))
    case (Some(ef), Some(sp), Some(ss)) => Success((ef, sp, ss))
    case _ => Failure(TypeError)
  }

  /** All four byte fields of the build tool's dictionary decode. */
  predicate ToolDecodes(p: Primitives, d: SecretsDict) {
    && DecodeB64ValueOrNone(p, DictGet(d, CRYPTO_SALT_PRIMARY)).Some?
    && DecodeB64ValueOrNone(p, DictGet(d, CRYPTO_SALT_SECONDARY)).Some?
    && DecodeB64ValueOrNone(p, DictGet(d, CRYPTO_PEPPER)).Some?
    && DecodeB64ValueOrNone(p, DictGet(d, INTEGRITY_CHECK_KEY)).Some?
  }

  /** The four byte fields of the build tool's dictionary, decoded. */
  function ToolDecoded(p: Primitives, d: SecretsDict): Decoded
    requires ToolDecodes(p, d)
  {
    Decoded(DecodeB64ValueOrNone(p, DictGet(d, CRYPTO_SALT_PRIMARY)).value,
            DecodeB64ValueOrNone(p, DictGet(d, CRYPTO_SALT_SECONDARY)).value,
            DecodeB64ValueOrNone(p, DictGet(d, CRYPTO_PEPPER)).value,
            DecodeB64ValueOrNone(p, DictGet(d, INTEGRITY_CHECK_KEY)).value)
  }

  /** The build tool's (and the verification script's) `_derive_multilayer_key(password, config)`:
      stops on an empty ARGUMENT before decoding, then decodes the four byte fields, then hashes
      the entropy text, then runs the chain. */
  function ToolDeriveKey(p: Primitives, password: string, d: SecretsDict): (r: Result<KeyTrace, Error>)
    requires p.Valid()
    ensures password == "" ==> r == Failure(MissingPassword)
    ensures password != "" && !ToolDecodes(p, d) ==> r == Failure(DecodeError)
    ensures password != "" && ToolDecodes(p, d) ==> (r.Success? <==> ToolFixedEntropyText(d).Success?)
    ensures password != "" && ToolDecodes(p, d) && ToolFixedEntropyText(d).Failure? ==> r == Failure(TypeError)
    // Each decoded setting feeds its own stage; the entropy hashes the dictionary's texts.
    ensures r.Success? ==>
      && ToolDecodes(p, d) && ToolFixedEntropyText(d).Success?
      && r.value == Chain(p, password, DictGet(d, SYSTEM_ENTROPY_FACTOR).value, DictGet(d, CRYPTO_SALT_PRIMARY).value,
                          DictGet(d, CRYPTO_SALT_SECONDARY).value, ToolDecoded(p, d))
    ensures r.Success? ==> |r.value.fernetKey| == 44
  {
    if password == "" then Failure(MissingPassword)
    else
      var saltPrimary :- DecodeOrNone(p, DictGet(d, CRYPTO_SALT_PRIMARY));
      var saltSecondary :- DecodeOrNone(p, DictGet(d, CRYPTO_SALT_SECONDARY));
      var pepper :- DecodeOrNone(p, DictGet(d, CRYPTO_PEPPER));
      var integrityKey :- DecodeOrNone(p, DictGet(d, INTEGRITY_CHECK_KEY));
      var texts :- ToolFixedEntropyText(d);
      Success(Chain(p, password, texts.0, texts.1, texts.2,
                    Decoded(saltPrimary, saltSecondary, pepper, integrityKey)))
  }

  /** The copies compute the same function whenever the dashboard is handed its configured password
      (as `_db_state` does through `get_files_password`) and the two dictionaries hold the same
      optional values: same key, same error. */
  lemma AppAgreesWithTool(p: Primitives, password: string, c: CryptoConfig, d: SecretsDict)
    requires p.Valid()
    requires Corresponds(d, c)
    requires c.password == Some(password)
    ensures AppDeriveKey(p, password, c) == ToolDeriveKey(p, password, d)
  {
    var saltPrimary := DecodeB64ValueOrNone(p, DictGet(d, CRYPTO_SALT_PRIMARY));
    assert saltPrimary == DecodeB64Value(p, c.saltPrimary);
    assert DecodeB64ValueOrNone(p, DictGet(d, CRYPTO_SALT_SECONDARY)) == DecodeB64Value(p, c.saltSecondary);
    assert DecodeB64ValueOrNone(p, DictGet(d, CRYPTO_PEPPER)) == DecodeB64Value(p, c.pepper);
    assert DecodeB64ValueOrNone(p, DictGet(d, INTEGRITY_CHECK_KEY)) == DecodeB64Value(p, c.integrityKey);
    assert ToolFixedEntropyText(d) == Success((c.entropyFactor, c.saltPrimary, c.saltSecondary));
  }

  /** Where the copies part: the dashboard derives a key from an empty argument as long as its
      configured password is set; the build tool refuses. */
  lemma AppIgnoresEmptyArgument(p: Primitives, c: CryptoConfig, d: SecretsDict)
    requires p.Valid()
    requires Present(c.password) && AppDecodes(p, c)
    ensures AppDeriveKey(p, "", c).Success?
    ensures AppDeriveKey(p, "", c).value.pbkdf2Input == [0x5F] + Utf8(c.entropyFactor)
    ensures ToolDeriveKey(p, "", d) == Failure(MissingPassword)
  {
    AppDerivesFromEmptyArgument(p, c);
  }

  lemma AppDerivesFromEmptyArgument(p: Primitives, c: CryptoConfig)
    requires p.Valid()
    requires Present(c.password) && AppDecodes(p, c)
    ensures AppDeriveKey(p, "", c).Success?
    ensures AppDeriveKey(p, "", c).value.pbkdf2Input == [0x5F] + Utf8(c.entropyFactor)
  {
    var t := Chain(p, "", c.entropyFactor, c.saltPrimary, c.saltSecondary, AppDecoded(p, c));
    assert t.pbkdf2Input == Utf8("") + [0x5F] + Utf8(c.entropyFactor);
    assert Utf8("") == [];
  }

  /** The verification script's configuration: password `teste123`, every optional value empty. */
  const VerifyConfig: SecretsDict := map[
    FILES_PASSWORD := Some("teste123"),
    CRYPTO_SALT_PRIMARY := Some(""),
    CRYPTO_SALT_SECONDARY := Some(""),
    CRYPTO_PEPPER := Some(""),
    SYSTEM_ENTROPY_FACTOR := Some(""),
    INTEGRITY_CHECK_KEY := Some("")]

  lemma VerifyConfigValues()
    ensures DictGet(VerifyConfig, CRYPTO_SALT_PRIMARY) == Some("")
    ensures DictGet(VerifyConfig, CRYPTO_SALT_SECONDARY) == Some("")
    ensures DictGet(VerifyConfig, CRYPTO_PEPPER) == Some("")
    ensures DictGet(VerifyConfig, SYSTEM_ENTROPY_FACTOR) == Some("")
    ensures DictGet(VerifyConfig, INTEGRITY_CHECK_KEY) == Some("")
    ensures DictGet(VerifyConfig, FILES_PASSWORD) == Some("teste123")
  {
  }

  lemma VerifyConfigDerives(p: Primitives)
    requires p.Valid()
    ensures ToolDeriveKey(p, "teste123", VerifyConfig) == Success(Chain(p, "teste123", "", "", "", Decoded([], [], [], [])))
  {
    VerifyConfigValues();
    assert DecodeOrNone(p, Some("")) == Success([]) by {
      assert !HasB64Prefix("");
      assert Utf8("") == [];
    }
    assert ToolFixedEntropyText(VerifyConfig) == Success(("", "", ""));
  }

  /** With empty optional values the chain degenerates: PBKDF2 is salted by the first half of the
      fixed entropy alone, scrypt is unsalted, and HKDF gets the second half and k2 alone. */
  lemma VerifyScenario(p: Primitives)
    requires p.Valid()
    ensures EntropyText("", "", "") == "___od_aero_fixed_entropy_2024"
    ensures ToolDeriveKey(p, "teste123", VerifyConfig).Success?
    ensures var t := ToolDeriveKey(p, "teste123", VerifyConfig).value;
      && t.fixedEntropy == FixedEntropy(p, "", "", "")
      && t.pbkdf2Input == Utf8("teste123") + [0x5F]
      && t.pbkdf2Salt == t.fixedEntropy[..16]
      && t.scryptSalt == []
      && t.hkdfSalt == t.fixedEntropy[16..]
      && t.hkdfIkm == t.k2
      && |t.fernetKey| == 44
  {
    VerifyEntropyText();
    VerifyConfigDerives(p);
    ScenarioChain(p);
  }

  /** The script's PBKDF2 input `teste123_` is nine ASCII bytes, one per character. */
  lemma VerifyPasswordBytes()
    ensures Utf8("teste123") + [0x5F] == [0x74, 0x65, 0x73, 0x74, 0x65, 0x31, 0x32, 0x33, 0x5F]
  {
    AsciiUtf8("teste123");
  }

  lemma VerifyEntropyText()
    ensures EntropyText("", "", "") == "___od_aero_fixed_entropy_2024"
  {
    assert "" + "_" + "" + "_" + "" + "_" == "___";
    assert "___" + ENTROPY_TAG == "___od_aero_fixed_entropy_2024";
  }

  lemma ScenarioChain(p: Primitives)
    requires p.Valid()
    ensures var t := Chain(p, "teste123", "", "", "", Decoded([], [], [], []));
      && t.fixedEntropy == FixedEntropy(p, "", "", "")
      && t.pbkdf2Input == Utf8("teste123") + [0x5F]
      && t.pbkdf2Salt == t.fixedEntropy[..16]
      && t.scryptSalt == []
      && t.hkdfSalt == t.fixedEntropy[16..]
      && t.hkdfIkm == t.k2
      && |t.fernetKey| == 44
  {
    var t := Chain(p, "teste123", "", "", "", Decoded([], [], [], []));
    assert t.pbkdf2Salt + t.hkdfSalt == t.fixedEntropy;
  }
}

=== FILE: primitives.dfy ===
/** The cryptographic and codec primitives the pipeline calls but does not implement.
    Each is an uninterpreted function value; `Valid` collects the only facts the model
    relies on: output lengths and the gzip and Fernet round trips. */
module Primitives {
  import opened Wrappers
  import opened Bytes

  datatype Primitives = Primitives(
    /** SHA-256 (FIPS 180-4). */
    sha256: Bytes -> Bytes,
    /** PBKDF2 with HMAC-SHA512 (section 5.2 of RFC 8018): (password, salt, iterations, length). */
    pbkdf2HmacSha512: (Bytes, Bytes, nat, nat) -> Bytes,
    /** scrypt (RFC 7914): (input, salt, n, r, p, length). */
    scrypt: (Bytes, Bytes, nat, nat, nat, nat) -> Bytes,
    /** HKDF with SHA-256 (RFC 5869): (input key material, salt, info, length). */
    hkdfSha256: (Bytes, Bytes, Bytes, nat) -> Bytes,
    /** `base64.b64decode` (section 4 of RFC 4648); `None` where it raises `binascii.Error`. */
    b64Decode: string -> Option<Bytes>,
    /** `base64.urlsafe_b64encode` (section 5 of RFC 4648), padded, as ASCII bytes. */
    urlsafeB64Encode: Bytes -> Bytes,
    /** `gzip.compress` (RFC 1952); `None` where it raises. */
    gzipCompress: Bytes -> Option<Bytes>,
    /** `gzip.decompress`; `None` where the input is not a gzip stream. */
    gzipDecompress: Bytes -> Option<Bytes>,
    /** `Fernet(key).encrypt`: (key, plaintext, the random IV and timestamp it draws). */
    fernetEncrypt: (Bytes, Bytes, Bytes) -> Bytes,
    /** `Fernet(key).decrypt` without a time-to-live; `None` where it raises `InvalidToken`. */
    fernetDecrypt: (Bytes, Bytes) -> Option<Bytes>
  ) {

    ghost predicate Valid() {
      && (forall m :: |sha256(m)| == 32)
      && (forall pw, salt, iterations, n :: |pbkdf2HmacSha512(pw, salt, iterations, n)| == n)
      && (forall x, salt, cost, r, p, n :: |scrypt(x, salt, cost, r, p, n)| == n)
      && (forall ikm, salt, info, n :: |hkdfSha256(ikm, salt, info, n)| == n)
      && (forall b :: |urlsafeB64Encode(b)| == 4 * ((|b| + 2) / 3))
      && (forall m | gzipCompress(m).Some? :: gzipDecompress(gzipCompress(m).value) == Some(m))
      && (forall k, m, iv :: fernetDecrypt(k, fernetEncrypt(k, m, iv)) == Some(m))
    }
  }

  // Parameters fixed by `_derive_multilayer_key`.
  const PBKDF2_ITERATIONS: nat := 200000
  const PBKDF2_LENGTH: nat := 64
  const SCRYPT_N: nat := 16384
  const SCRYPT_R: nat := 8
  const SCRYPT_P: nat := 1
  const SCRYPT_LENGTH: nat := 32
  const HKDF_LENGTH: nat := 32

  function Zeros(n: nat): (r: Bytes)
    ensures |r| == n
  {
    seq(n, _ => 0)
  }

  /** A stand-in satisfying every axiom, so that `Valid` is not a contradiction. */
  function Trivial(): Primitives {
    Primitives(
      m => Zeros(32),
      (pw, salt, iterations, n) => Zeros(n),
      (x, salt, cost, r, p, n) => Zeros(n),
      (ikm, salt, info, n) => Zeros(n),
      s => None,
      b => Zeros(4 * ((|b| + 2) / 3)),
      m => Some(m),
      c => Some(c),
      (k, m, iv) => m,
      (k, t) => Some(t))
  }

  lemma ValidIsSatisfiable()
    ensures exists p: Primitives :: p.Valid()
  {
    assert Trivial().Valid();
  }
}

=== FILE: secrets.dfy ===
/** Where the pipeline's secrets come from: the dashboard's `_get_crypto_config` and
    `get_files_password`, and the build tool's `_read_secrets`. */
module Secrets {
  import opened Wrappers
  import opened Seqs

  /** Every way the pipeline stops: a raised exception or a `st.stop()` after an error message. */
  datatype Error =
    | MissingPassword                   // FILES_PASSWORD empty or unset
    | MissingConfigs(keys: seq<string>) // `get_files_password`: the empty optional values, named
    | DecodeError                       // a `b64:` value that `base64.b64decode` rejects
    | TypeError                         // `'_'.join` over a `None` component
    | InvalidToken                      // Fernet authentication failure

  // Names shared by the secrets store and the process environment.
  const FILES_PASSWORD := "FILES_PASSWORD"
  const CRYPTO_SALT_PRIMARY := "CRYPTO_SALT_PRIMARY"
  const CRYPTO_SALT_SECONDARY := "CRYPTO_SALT_SECONDARY"
  const CRYPTO_PEPPER := "CRYPTO_PEPPER"
  const SYSTEM_ENTROPY_FACTOR := "SYSTEM_ENTROPY_FACTOR"
  const INTEGRITY_CHECK_KEY := "INTEGRITY_CHECK_KEY"

  /** The five optional values, in the order the build tool fills them in. */
  const AuxNames: seq<string> :=
    [CRYPTO_SALT_PRIMARY, CRYPTO_SALT_SECONDARY, CRYPTO_PEPPER, SYSTEM_ENTROPY_FACTOR, INTEGRITY_CHECK_KEY]

  /** The dashboard's configuration dictionary; `password` is `None` when unset. */
  datatype CryptoConfig = CryptoConfig(
    password: Option<string>,
    saltPrimary: string,
    saltSecondary: string,
    pepper: string,
    entropyFactor: string,
    integrityKey: string)

  /** Python truthiness of a `str | None`. */
  predicate Present(v: Option<string>) {
    v.Some? && v.value != ""
  }

  /** `m.get(k)`. */
  function Lookup(m: map<string, string>, k: string): Option<string> {
    if k in m then Some(m[k]) else None
  }

  /** `m.get(k, default)`. */
  function LookupOr(m: map<string, string>, k: string, default: string): string {
    if k in m then m[k] else default
  }

  /** The dictionary `_get_crypto_config` builds from one source. */
  function ConfigFrom(src: map<string, string>): CryptoConfig {
    CryptoConfig(
      Lookup(src, FILES_PASSWORD),
      LookupOr(src, CRYPTO_SALT_PRIMARY, ""),
      LookupOr(src, CRYPTO_SALT_SECONDARY, ""),
      LookupOr(src, CRYPTO_PEPPER, ""),
      LookupOr(src, SYSTEM_ENTROPY_FACTOR, ""),
      LookupOr(src, INTEGRITY_CHECK_KEY, ""))
  }

  /** `_get_crypto_config`: `secrets` is the Streamlit secrets store, `None` when reading it raises.
      All six values come from ONE source: the environment is consulted only without a store. */
  function GetCryptoConfig(secrets: Option<map<string, string>>, env: map<string, string>): (c: CryptoConfig)
    // Each value is read under its own name from the one source, an optional one defaulting to "".
    ensures var src := secrets.GetOr(env);
      && c.password == Lookup(src, FILES_PASSWORD)
      && c.saltPrimary == LookupOr(src, CRYPTO_SALT_PRIMARY, "")
      && c.saltSecondary == LookupOr(src, CRYPTO_SALT_SECONDARY, "")
      && c.pepper == LookupOr(src, CRYPTO_PEPPER, "")
      && c.entropyFactor == LookupOr(src, SYSTEM_ENTROPY_FACTOR, "")
      && c.integrityKey == LookupOr(src, INTEGRITY_CHECK_KEY, "")
  {
    match secrets
    case Some(store) => ConfigFrom(store)
    case None => ConfigFrom(env)
  }

  /** With a secrets store the environment is never consulted, not even for a value the store lacks. */
  lemma StoreIgnoresEnvironment(store: map<string, string>, env1: map<string, string>, env2: map<string, string>)
    ensures GetCryptoConfig(Some(store), env1) == GetCryptoConfig(Some(store), env2)
  {
  }

  /** Without a store the environment takes its place for all six values. */
  lemma EnvironmentActsAsStore(env: map<string, string>)
    ensures GetCryptoConfig(None, env) == GetCryptoConfig(Some(env), map[])
  {
  }

  /** The dashboard's name for each optional value, in the order `get_files_password` checks them. */
  const RequiredConfigs: seq<string> := ["salt_primary", "salt_secondary", "pepper", "entropy_factor", "integrity_key"]

  /** `config[name]` for the optional values; other names are not keys of the dictionary. */
  function Field(c: CryptoConfig, name: string): string {
    if name == "salt_primary" then c.saltPrimary
    else if name == "salt_secondary" then c.saltSecondary
    else if name == "pepper" then c.pepper
    else if name == "entropy_factor" then c.entropyFactor
    else c.integrityKey
  }

  /** `[key for key in names if not config[key]]`. */
  function EmptyFields(c: CryptoConfig, names: seq<string>): (keys: seq<string>)
    ensures IsSubsequence(keys, names)
    ensures forall k :: k in keys <==> k in names && Field(c, k) == ""
    decreases |names|
  {
    if |names| == 0 then []
    else
      var rest := EmptyFields(c, names[..|names| - 1]);
      var last := names[|names| - 1];
      assert names == names[..|names| - 1] + [last];
      if Field(c, last) == "" then
        SubsequenceExtend(rest, names[..|names| - 1], last);
        rest + [last]
      else
        SubsequenceExtend(rest, names[..|names| - 1], last);
        rest
  }

  /** `get_files_password`: the configured password, provided it and all five optional values are set;
      otherwise it stops, naming exactly the empty optional values in their fixed order. */
  function GetFilesPassword(c: CryptoConfig): (r: Result<string, Error>)
    ensures !Present(c.password) ==> r == Failure(MissingPassword)
    ensures Present(c.password) ==>
      (r.Success? <==> forall k | k in RequiredConfigs :: Field(c, k) != "")
    ensures r.Success? ==> Some(r.value) == c.password && r.value != ""
    ensures Present(c.password) && r.Failure? ==>
      && r.error.MissingConfigs?
      && IsSubsequence(r.error.keys, RequiredConfigs)
      && (forall k :: k in r.error.keys <==> k in RequiredConfigs && Field(c, k) == "")
  {
    if !Present(c.password) then Failure(MissingPassword)
    else
      var missing := EmptyFields(c, RequiredConfigs);
      assert |missing| > 0 ==> missing[0] in missing;
      if |missing| > 0 then Failure(MissingConfigs(missing))
      else Success(c.password.value)
  }

  /** The build tool's dictionary: every key of `secrets.toml`, plus the six names;
      only FILES_PASSWORD can hold Python's `None`. */
  type SecretsDict = map<string, Option<string>>

  /** `d.setdefault(k, v)`. */
  function SetDefault(d: SecretsDict, k: string, v: Option<string>): SecretsDict {
    if k in d then d else d[k := v]
  }

  /** The fallback `_read_secrets` gives a name missing from the file. */
  function EnvDefault(env: map<string, string>, k: string): Option<string> {
    if k == FILES_PASSWORD then Lookup(env, FILES_PASSWORD) else Some(LookupOr(env, k, ""))
  }

  /** `d` holds the file's entries and, for each of `names` the file lacks, its fallback. */
  ghost predicate Filled(d: SecretsDict, f: map<string, string>, env: map<string, string>, names: set<string>) {
    && d.Keys == f.Keys + names
    && forall k | k in d :: d[k] == (if k in f then Some(f[k]) else EnvDefault(env, k))
  }

  lemma SetDefaultFills(d: SecretsDict, f: map<string, string>, env: map<string, string>, names: set<string>, k: string)
    requires Filled(d, f, env, names)
    ensures Filled(SetDefault(d, k, EnvDefault(env, k)), f, env, names + {k})
  {
  }

  /** The `setdefault` calls of `_read_secrets`, one per name, in order. */
  function FillDefaults(d: SecretsDict, names: seq<string>, env: map<string, string>): SecretsDict
    decreases |names|
  {
    if |names| == 0 then d else FillDefaults(SetDefault(d, names[0], EnvDefault(env, names[0])), names[1..], env)
  }

  lemma {:induction false} FillDefaultsFills(
    d: SecretsDict, f: map<string, string>, env: map<string, string>, done: set<string>, names: seq<string>)
    requires Filled(d, f, env, done)
    ensures Filled(FillDefaults(d, names, env), f, env, done + set k | k in names)
    decreases |names|
  {
    if |names| > 0 {
      SetDefaultFills(d, f, env, done, names[0]);
      FillDefaultsFills(SetDefault(d, names[0], EnvDefault(env, names[0])), f, env, done + {names[0]}, names[1..]);
      assert done + {names[0]} + (set k | k in names[1..]) == done + set k | k in names;
    }
  }

  /** The six names `_read_secrets` fills in, in order. */
  const SecretNames: seq<string> := [FILES_PASSWORD] + AuxNames

  /** `_read_secrets`: `file` is the parsed `secrets.toml`, `None` when it is missing or unreadable.
      Values from the file win; the environment only fills names the file lacks. */
  function ReadSecrets(file: Option<map<string, string>>, env: map<string, string>): (d: SecretsDict)
    ensures d.Keys == file.GetOr(map[]).Keys + (set k | k in SecretNames)
    ensures FILES_PASSWORD in d
    ensures forall k | k in d ::
      d[k] == if k in file.GetOr(map[]) then Some(file.GetOr(map[])[k]) else EnvDefault(env, k)
  {
    var f := file.GetOr(map[]);
    var d0: SecretsDict := map k | k in f :: Some(f[k]);
    assert Filled(d0, f, env, {});
    FillDefaultsFills(d0, f, env, {}, SecretNames);
    assert SecretNames[0] == FILES_PASSWORD;
    FillDefaults(d0, SecretNames, env)
  }

  /** The fallbacks: FILES_PASSWORD from the environment or `None`, the other five from the
      environment or the empty string; a name the file has keeps the file's value. */
  lemma ReadSecretsFallbacks(file: Option<map<string, string>>, env: map<string, string>)
    ensures forall k | k in file.GetOr(map[]) :: ReadSecrets(file, env)[k] == Some(file.GetOr(map[])[k])
    ensures FILES_PASSWORD !in file.GetOr(map[]) ==> ReadSecrets(file, env)[FILES_PASSWORD] == Lookup(env, FILES_PASSWORD)
    ensures forall k | k in AuxNames && k !in file.GetOr(map[]) ::
      ReadSecrets(file, env)[k] == Some(LookupOr(env, k, ""))
  {
    var d := ReadSecrets(file, env);
    forall k | k in AuxNames && k !in file.GetOr(map[])
      ensures d[k] == Some(LookupOr(env, k, ""))
    {
      assert k in SecretNames;
      assert k != FILES_PASSWORD;
    }
  }

  /** `config.get(k, '')` on the build tool's dictionary. */
  function DictGet(d: SecretsDict, k: string): Option<string> {
    if k in d then d[k] else Some("")
  }

  /** The tool's dictionary holds the same five optional values as the dashboard's configuration. */
  predicate Corresponds(d: SecretsDict, c: CryptoConfig) {
    && DictGet(d, CRYPTO_SALT_PRIMARY) == Some(c.saltPrimary)
    && DictGet(d, CRYPTO_SALT_SECONDARY) == Some(c.saltSecondary)
    && DictGet(d, CRYPTO_PEPPER) == Some(c.pepper)
    && DictGet(d, SYSTEM_ENTROPY_FACTOR) == Some(c.entropyFactor)
    && DictGet(d, INTEGRITY_CHECK_KEY) == Some(c.integrityKey)
  }

  /** For `k`, the environment adds nothing to what the file says: the file has the name, or the
      environment has no non-empty value for it. */
  predicate EnvAddsNothing(f: map<string, string>, env: map<string, string>, k: string) {
    k in f || LookupOr(env, k, "") == ""
  }

  /** Reading the same `secrets.toml` and environment, the dashboard and the build tool see the same
      optional values exactly when the environment adds nothing for a name the file lacks: the
      dashboard never falls back to the environment per name, the build tool does. */
  lemma SameSecretsIff(f: map<string, string>, env: map<string, string>)
    ensures Corresponds(ReadSecrets(Some(f), env), GetCryptoConfig(Some(f), env)) <==>
      forall k | k in AuxNames :: EnvAddsNothing(f, env, k)
  {
    SameValueIff(f, env, CRYPTO_SALT_PRIMARY);
    SameValueIff(f, env, CRYPTO_SALT_SECONDARY);
    SameValueIff(f, env, CRYPTO_PEPPER);
    SameValueIff(f, env, SYSTEM_ENTROPY_FACTOR);
    SameValueIff(f, env, INTEGRITY_CHECK_KEY);
    EveryAuxName(f, env);
  }

  lemma EveryAuxName(f: map<string, string>, env: map<string, string>)
    ensures (forall k | k in AuxNames :: EnvAddsNothing(f, env, k)) <==>
      && EnvAddsNothing(f, env, CRYPTO_SALT_PRIMARY)
      && EnvAddsNothing(f, env, CRYPTO_SALT_SECONDARY)
      && EnvAddsNothing(f, env, CRYPTO_PEPPER)
      && EnvAddsNothing(f, env, SYSTEM_ENTROPY_FACTOR)
      && EnvAddsNothing(f, env, INTEGRITY_CHECK_KEY)
  {
    assert AuxNames[0] == CRYPTO_SALT_PRIMARY && AuxNames[1] == CRYPTO_SALT_SECONDARY && AuxNames[2] == CRYPTO_PEPPER;
    assert AuxNames[3] == SYSTEM_ENTROPY_FACTOR && AuxNames[4] == INTEGRITY_CHECK_KEY;
  }

  /** One optional value: the tool's reading equals the dashboard's iff the environment adds nothing. */
  lemma SameValueIff(f: map<string, string>, env: map<string, string>, k: string)
    requires k in AuxNames
    ensures DictGet(ReadSecrets(Some(f), env), k) == Some(LookupOr(f, k, "")) <==> EnvAddsNothing(f, env, k)
  {
    ReadSecretsFallbacks(Some(f), env);
  }

  /** Without a secrets file both read every optional value from the environment. */
  lemma SameSecretsWithoutFile(env: map<string, string>)
    ensures Corresponds(ReadSecrets(None, env), GetCryptoConfig(None, env))
  {
  }
}

=== FILE: seqs.dfy ===
/** Order-preserving subsequences, used by the filters of the dashboard and the configuration check. */
module Seqs {

  /** `a` can be obtained from `b` by deleting elements, keeping the order of the rest.
      Defined from the back, so that appending to `b` is a single unfolding. */
  predicate IsSubsequence<T(==)>(a: seq<T>, b: seq<T>)
    decreases |b|
  {
    if |a| == 0 then true
    else if |b| == 0 then false
    else if a[|a| - 1] == b[|b| - 1] && IsSubsequence(a[..|a| - 1], b[..|b| - 1]) then true
    else IsSubsequence(a, b[..|b| - 1])
  }

  /** Dropping the last element of `b` may be undone by appending it again. */
  lemma SubsequenceExtend<T>(a: seq<T>, b: seq<T>, x: T)
    requires IsSubsequence(a, b)
    ensures IsSubsequence(a, b + [x])
    ensures IsSubsequence(a + [x], b + [x])
  {
    assert (b + [x])[..|b|] == b;
    assert (a + [x])[..|a|] == a;
  }

  /** No element occurs twice. */
  predicate Distinct<T(==)>(s: seq<T>) {
    forall i, j | 0 <= i < j < |s| :: s[i] != s[j]
  }

  /** Joining two duplicate-free sequences with no element in common gives a duplicate-free one. */
  lemma DistinctConcat<T>(a: seq<T>, b: seq<T>)
    requires Distinct(a) && Distinct(b)
    requires forall x | x in a :: x !in b
    ensures Distinct(a + b)
  {
    forall i, j | 0 <= i < j < |a + b|
      ensures (a + b)[i] != (a + b)[j]
    {
      if j < |a| {
        assert (a + b)[i] == a[i] && (a + b)[j] == a[j];
      } else if i < |a| {
        assert (a + b)[i] == a[i] && (a + b)[j] == b[j - |a|];
        assert a[i] in a && b[j - |a|] in b;
      } else {
        assert (a + b)[i] == b[i - |a|] && (a + b)[j] == b[j - |a|];
      }
    }
  }
}

=== FILE: wrappers.dfy ===
/** Failure-compatible result types for the pipeline's raised exceptions and `st.stop()` halts. */
module Wrappers {

  /** An optional value: Python's `None` or a present value. */
  datatype Option<+T> = None | Some(value: T) {

    /** The value, or `default` when absent (Python's `x if x is not None else default`). */
    function GetOr(default: T): T {
      match this
      case Some(v) => v
      case None => default
    }
  }

  /** The outcome of an operation that either returns a value or stops with an error. */
  datatype Result<+T, +E> = Success(value: T) | Failure(error: E) {

    predicate IsFailure() {
      Failure?
    }

    function PropagateFailure<U>(): Result<U, E>
      requires Failure?
    {
      Failure(error)
    }

    function Extract(): T
      requires Success?
    {
      value
    }
  }
}
